=== FILE: README.md ===
# omg-trivia-bot: the trivia session, the question store and the bank validator

A Dafny model of the three parts of the bot that hold its logic:

- the **trivia session** of `trivia.js`: the admin allow-list, `!start`, `!stop`, `!skip`, the
  answer judge with its wrong-attempt limit, the argument handling of `!load`, `!unload` and
  `!scores`, and the score ledger side effect (module `Trivia`);
- the **question store** of `questions.js`: loading the bank files into loaded and unloaded
  banks and one flat, stamped question list, the Fisher–Yates shuffle, the pool cursor with its
  reshuffle, answer matching, and hiding or unhiding a bank (modules `Questions`, `Shuffle`);
- the **bank validator** of `verify-bank.js`: the error list for one bank file and the split of
  a directory into valid and broken files (module `BankValidator`).

Supporting modules: `Values` (a parsed TOML value and the JavaScript operations the code applies
to it: property access, truthiness, `typeof`, `[0]`, string conversion), `Files` (the questions
directory as a listing plus per-file read outcomes), `Paths` (`path.join` with its
normalisation), `Text` (`toLowerCase`, `trim`, `split(" ")`,
decimal printing) and `Wrappers` (`Option`, `Result`).

Module-level variables become values: `Questions.Store` holds `allQuestions`, `loadedBanks`,
`unloadedBanks`, `bankFiles`, `questionPool` and `currentIndex`; `Trivia.World` adds `isRunning`,
`currentQuestion`, `wrongAttempts`, the directory and the score ledger. Each handler is a pure
function from a world and an event to a `Step`: the next world, the replies in order, and whether
the handler ended in a `TypeError`. After a throw the module variables keep the values assigned
before it. `Math.random` becomes a `Shuffle.Random` parameter, the file system a
`Files.Disk`, and `recordScore` one more entry for the nick in a multiset ledger.

Edge cases the code handles in its own way, and the model with it:

- One bank file that cannot be read or parsed ends the whole load in its `catch`, and so does a
  visible bank whose `questions` is truthy but not an array; a hidden bank never reaches its
  questions. The catalog keeps what was added before the throw: the earlier files' entries and,
  for a bank whose `questions` threw, its own `bankFiles` entry and `loadedBanks` entry. The pool
  and cursor keep their old values, and the load reports failure (`Questions.LoadQuestions`,
  `Questions.LoadSucceeds`). The load never calls `verify-bank.js`.
- An unreadable directory clears the catalog but leaves the old pool and cursor.
- After the last visible bank is unloaded mid-game, a skip or an answer draws `null` and throws
  when it reads `.question`. The module variables then hold a running game with no current
  question (`Trivia.SkipWhenEmptied`).
- `setBankHidden` reports success once the file is written, whatever the reload that follows
  does.

## Model

| member | source | states |
|---|---|---|
| Trivia.NonAdminChangesNothing | trivia.js:44-47 | a caller not on `admins.nicks` gets a single refusal from start, stop, load and unload, and the world is unchanged |
| Trivia.HandleStart | trivia.js:43-72 | refuses non-admins, a running game and an empty store with the world unchanged; when it starts a game, the caller is an admin, the question is the next draw, the counter is 0 and the replies are the start line, the blank line and the question; when the draw is falsy it replies "No questions available!" and leaves the game stopped |
| Trivia.StartStarts | trivia.js:59-71 | an admin's start while idle with questions loaded always starts the game with three replies: "No questions available!" cannot happen while the store holds only tables |
| Trivia.HandleStop | trivia.js:74-89 | refuses non-admins and an idle game with the world unchanged; otherwise clears the running flag, the current question and the counter, and replies "Trivia stopped!" |
| Trivia.HandleSkip | trivia.js:91-105 | idle or with no current question it only replies "Trivia is not running."; the ledger, running flag and directory never change; the store either stays or becomes the next draw's store |
| Trivia.SkipAdvances | trivia.js:97-104 | a skip of a question whose `answer` is anything but `undefined` replies first with the bold "Skipped!" line revealing `answer[0]` and then the blank line, moves to the next draw and resets the counter, and throws exactly when the store is empty |
| Trivia.SkipWhenEmptied | trivia.js:100-104 | a skip of a question with a defined `answer` after the store emptied throws, leaving the game running with no current question, and every later skip says the game is not running |
| Trivia.AdvanceThrows | trivia.js:181-185 | moving to the next question throws exactly when nothing is left to draw |
| Trivia.HandleAnswer | trivia.js:155-221 | while idle it does nothing and says nothing; the ledger gains at most the sender; the counter is unchanged, reset, or one higher and still below the limit |
| Trivia.InlineCheckIsCheckAnswer | trivia.js:160-165 | the inline lower-case-and-trim match in `handleAnswer` accepts exactly the messages `checkAnswer` accepts for the same answers |
| Trivia.AnswerOutcome | trivia.js:165-219 | a correct answer records one point for the sender, moves to the next draw and resets the counter; a wrong one records nothing and either moves on at the limit or keeps the question with at least one attempt left |
| Trivia.ValidatedAnswerThrowsOnlyWhenEmpty | trivia.js:160-185 | for a stamped question that passes the bank validator, an answer throws only when it moves on and the store is empty |
| Trivia.HandleLoad | trivia.js:253-275 | refuses non-admins and messages with fewer than two space-separated parts with the world unchanged; always one reply |
| Trivia.HandleUnload | trivia.js:277-299 | the same guards and replies as load, for unload |
| Trivia.Toggle | trivia.js:265-274 | load and unload change exactly the store and the directory, as `setBankHidden` does, and send one reply |
| Trivia.ToggleTakesSecondWord | trivia.js:259-266 | an admin's `!load id ...` or `!unload id ...` acts on the second space-separated word |
| Trivia.HandleScores | trivia.js:301-311 | a query is only ever made for one of the four time frames `total`, `month`, `week`, `day`, with a non-zero limit; a usage reply is always the usage text |
| Trivia.ScoresTakesSecondWord | trivia.js:302-311 | `!scores frame` queries exactly when the frame is total, month, week or day, with the configured limit or 5 |
| Trivia.ScoresNeedsFrame | trivia.js:302-308 | `!scores` with no argument gets the usage text |
| Trivia.CounterStaysBelowLimit | trivia.js:188-205 | with a limit of at least 1, every handler keeps `0 <= wrongAttempts < max_wrong_attempts` |
| Trivia.LedgerOnlyGrowsByCorrectAnswers | trivia.js:175 | no handler but the answer handler touches the ledger, and it adds only the sender |
| Trivia.IdleIgnoresPlay | trivia.js:156-158 | while idle an answer changes nothing and sends nothing, and a skip only replies that the game is not running |
| Trivia.HandlersKeepTabled | trivia.js:61 | every handler keeps the store's questions tables |
| Shuffle.ShuffleArray | questions.js:64-71 | the loop over a copy computes the Fisher–Yates shuffle and returns a permutation of its argument |
| Shuffle.ShuffleIsPermutation | questions.js:64-71 | the shuffle keeps the length, the multiset of elements and membership |
| Shuffle.FisherYatesFixed | questions.js:66-69 | draws that always pick the current index leave the order unchanged |
| Shuffle.Swap | questions.js:68 | swapping exchanges the two positions, keeps the rest, and keeps the multiset |
| Questions.LoadQuestions | questions.js:11-62 | a successful load rewinds the cursor over a permutation of the new question list; a failed one leaves pool and cursor as they were |
| Questions.LoadSucceeds | questions.js:17-61 | the load succeeds exactly when the directory is readable and every bank file parses and is hidden or has falsy or array `questions` |
| Questions.LoadReplaces | questions.js:12-15 | the outcome of a load does not depend on the state before it |
| Questions.LoadCatalog | questions.js:22-48 | after a successful load the question list, loaded banks and unloaded banks equal the reference built bank by bank; every bank lands in exactly one list; the count is the visible banks' total |
| Questions.LoadFilesReference | questions.js:22-48 | the file loop appends each bank's stamped questions, visible reference and hidden reference in listing order |
| Questions.LoadFileReference | questions.js:23-47 | one loadable file adds its stamped questions if visible, its reference to exactly one list, and maps its id to the file |
| Questions.LoadFilesSucceeds | questions.js:22-48 | the file loop gets through exactly when every file is loadable |
| Questions.BankFilesKeys | questions.js:27 | after the loop, a key is mapped exactly when it was mapped before or is the id of one of the banks, hidden ones included |
| Questions.BankFilesFromFiles | questions.js:27 | every mapped file name comes from the listing, or was mapped before |
| Questions.BankFilesUntouched | questions.js:27 | a key no bank uses keeps its old file |
| Questions.BankFilesLastWins | questions.js:27 | an id maps to the last listed file that declares it |
| Questions.StampFields | questions.js:40-45 | a stamped question is a table with the bank's name, difficulty and topic, keeping the entry's question and answer |
| Questions.ShownQuestionsMember | questions.js:38-46 | a question is in the list exactly when it is a stamped entry of some visible bank |
| Questions.BankQuestionsMember | questions.js:30-46 | one bank contributes exactly its stamped entries, and only when it is not hidden |
| Questions.ShownQuestionsCount | questions.js:124 | the length of the question list is the total size of the visible banks |
| Questions.RefsPartition | questions.js:30-35 | every bank is listed once, hidden banks as unloaded and the rest as loaded |
| Questions.LoadedCount | questions.js:124 | a store loaded from a directory counts the questions of its visible banks |
| Questions.NextQuestion | questions.js:73-86 | null exactly when no questions are loaded; otherwise the cursor stays within the pool and the question is the one under the cursor before it advanced; while the cursor is inside the pool the pool is kept, so only an empty or used-up pool is reshuffled |
| Questions.DrawFromCurrentPool | questions.js:79-85 | drawing keeps the pool a permutation of the question list and returns a loaded question |
| Questions.Draws | questions.js:73-86 | repeated draws keep the catalog and return one question per draw |
| Questions.DrawsFollowPool | questions.js:85 | draws inside the pool return the pool entries from the cursor on, in order |
| Questions.FreshPoolCoversAll | questions.js:51-52 | after a load, the next `getQuestionCount()` draws return every question exactly once |
| Questions.UsedUpPoolCoversAll | questions.js:79-85 | after a reshuffle, the next `getQuestionCount()` draws return every question exactly once |
| Questions.CursorStaysInPool | questions.js:51-85 | loading, drawing and hiding or unhiding a bank never move the cursor past the end of the pool |
| Questions.LoadThenDrawAll | questions.js:51-85 | a successful load followed by one draw per question serves each question once |
| Questions.LoadKeepsTabled | questions.js:40-45 | a load keeps every question in the store a table |
| Questions.DrawKeepsTabled | questions.js:85 | a draw keeps the store tables-only and hands out a table |
| Questions.CheckAnswerExists | questions.js:88-91 | an answer is accepted exactly when its lower-cased, trimmed form equals that of one of the answers |
| Questions.CheckAnswerNormalised | questions.js:89 | normalising the user's answer first changes nothing |
| Questions.SetBankHidden | questions.js:97-118 | an unknown or empty-named bank fails with "Bank not found"; a known bank whose file cannot be read or parsed fails with that error's message, one whose write throws fails with the write's message, and one that parses and writes succeeds; a failure changes neither store nor directory; success needs a known, parsed bank file |
| Questions.ToggleKnownSucceeds | questions.js:98-113 | after a load that got through, toggling any bank id it mapped succeeds when the write does |
| Questions.ToggleWrites | questions.js:103-113 | success writes the bank back with `hidden` set as asked, leaves the other files alone, and reloads |
| Questions.ToggleMovesBank | questions.js:97-113 | after a successful toggle and reload, the bank is in the unloaded list when hidden and in the loaded list when shown; when no other listed file has the same id and name, it is no longer in the other list |
| Questions.ToggleCount | questions.js:108-111 | the question count after a toggle changes by exactly the bank's own contribution |
| Questions.UnloadDropsCount | questions.js:98-111 | after a load that got through, unloading a known visible bank succeeds, its reload gets through, and the count drops by exactly its questions |
| Questions.ToggleKeepsTabled | questions.js:111 | a toggle keeps the store tables-only |
| Questions.LoadedFileListed | questions.js:27 | every file the id map names is a listed bank file |
| BankValidator.VerifyBank | verify-bank.js:10-93 | a missing, unreadable or unparsable file gives exactly one error; otherwise the field checks, in report order, empty exactly when the bank is well formed |
| BankValidator.ParsedErrorsValid | verify-bank.js:38-92 | the error list of a parsed bank is empty exactly when it has string metadata, a boolean `hidden` and an array of well-formed questions |
| BankValidator.ParsedErrorsOrdered | verify-bank.js:38-92 | errors come in the order metadata, `hidden`, `questions`, then question by question and, within one, question text, answer, answer elements by index; none repeats |
| BankValidator.StageSplit | verify-bank.js:38-92 | each error of the report belongs to the stage its position names |
| BankValidator.StringFieldExact | verify-bank.js:40-48 | each required string field gives at most one error: missing exactly when undefined, a type error naming `typeof` exactly when present and not a string |
| BankValidator.MetadataFieldExact | verify-bank.js:39-48 | each of `id`, `name`, `difficulty` and `topic` is reported missing or mistyped exactly when it is |
| BankValidator.MetadataEmpty | verify-bank.js:39-48 | no metadata error exactly when all four fields are strings |
| BankValidator.HiddenExact | verify-bank.js:51-55 | `hidden` gives at most one error: missing when undefined, a type error when not a boolean, none otherwise |
| BankValidator.QuestionsFieldExact | verify-bank.js:58-61 | "missing" exactly when `questions` is falsy, "must be an array" exactly when it is truthy and not an array |
| BankValidator.QuestionsEmpty | verify-bank.js:57-90 | no `questions` error exactly when it is an array of well-formed questions |
| BankValidator.QuestionTextExact | verify-bank.js:67-71 | the question text gives at most one error, none exactly when it is a string |
| BankValidator.AnswerErrorsEmpty | verify-bank.js:74-88 | the answer gives no error exactly when it is a non-empty array of strings |
| BankValidator.AnswerKeyed | verify-bank.js:74-80 | an answer that is not a non-empty array gives exactly one error, not an element error |
| BankValidator.AnswerElementExact | verify-bank.js:81-87 | every non-string element gives an error naming its index, and every element error names a non-string element |
| BankValidator.AnswerElementErrorExact | verify-bank.js:63-88 | `answer[i]` of question n is reported exactly when question n exists, its answer is an array and element i is not a string |
| BankValidator.QuestionEntryEmpty | verify-bank.js:63-89 | an entry gives no error exactly when it is well formed |
| BankValidator.EntryLoopMember | verify-bank.js:63-89 | an error is in the loop's output exactly when it is an error of the entry its 1-based number names |
| BankValidator.EntryLoopEmpty | verify-bank.js:63-89 | the loop gives no error exactly when every entry is well formed |
| BankValidator.FlattenOrdered | verify-bank.js:63-89 | entry errors concatenated in index order stay in report order |
| BankValidator.VerifyAllBanks | verify-bank.js:100-123 | every bank file of the listing lands in exactly one of valid and broken, in broken exactly with its non-empty error list, each validated under `path.join(dir, file)`; both lists keep listing order, being exactly the reference split `ValidIn` and `BrokenIn`; an unreadable directory gives two empty lists |
| BankValidator.SplitCount | verify-bank.js:111-120 | the valid and broken lists together are as long as the file list |
| BankValidator.ValidInSound | verify-bank.js:115-116 | every valid file is a listed file with no errors |
| BankValidator.BrokenInSound | verify-bank.js:117-119 | every broken entry is a listed file carrying its own non-empty error list |
| BankValidator.SplitComplete | verify-bank.js:111-120 | every listed file is valid or broken |
| Paths.JoinPlain | verify-bank.js:112 | joining a bank file name onto a directory of plain names puts exactly one `/` between them |
| Paths.JoinDropsDot | verify-bank.js:112 | a leading `./` of the directory is dropped, so the default `./questions` gives `questions/<file>` |
| Paths.JoinDropsTrailingSlash | verify-bank.js:112 | a trailing `/` of the directory is not doubled |
| Files.TomlFiles | verify-bank.js:105 | the bank files are exactly the listed names ending in `.toml` |
| Files.Write | questions.js:110 | a written file reads back as the data written, other files and the listing unchanged |
| Text.NormaliseIdempotent | questions.js:89-90 | lower-casing and trimming twice is the same as once |
| Text.NormaliseShape | questions.js:89-90 | a normal form is lower case with no whitespace at either end |
| Text.TrimUnique | questions.js:89 | `trim` returns the unique slice with no whitespace outside it and none at its ends |
| Text.TrimIdempotent | questions.js:89 | trimming twice is the same as once |
| Text.LowerFixesLower | questions.js:89 | lower-casing a lower-case string changes nothing |
| Text.Split | trivia.js:259 | `split(" ")` gives at least one part and no part contains a space |
| Text.JoinSplit | trivia.js:259 | joining the parts with the separator gives the message back |
| Text.SplitJoin | trivia.js:259 | splitting a join of separator-free parts gives the parts back |
| Text.NatToStringRoundTrip | trivia.js:270 | the printed question count reads back as the count |
| Values.GetSetField | questions.js:108 | assigning `hidden` changes that property and no other |

## Left out

- `index.js`: the IRC connection, event wiring and signal handling. It also calls trivia
  functions that `trivia.js` does not export.
- `scores.js`: SQLite storage and wall-clock arithmetic. `recordScore` is one more multiset
  entry for the nick. `trivia.js` imports `getTopScoresRolling`, which `scores.js` does not
  export, so the query half of `handleScores` and the query branch of `handleScore` would throw a
  `TypeError`. `Trivia.HandleScores` stops at the decision to query.
- `format.js`: `bold` wraps its text in the control character U+0002, as the model does; `strip`
  is not used by the core.
- `loadConfig`, `handleReload`, `handleStatus`, `handleHelp`, `handleHelpAdmin`, `handleList`
  and `getBankInfo`: configuration I/O and reporting. The configuration is a given `Config`
  whose `max_wrong_attempts` is an integer. `handleList` calls `getBrokenBanks`, which
  `questions.js` does not export.
- Logging through `console.log` and `console.error`.
- Trivia.HandleAnswer: an absent `trivia` table or non-numeric `max_wrong_attempts`, which makes
  the comparison false or throws in JavaScript, is not modelled: the limit is always an integer.
- Trivia.HandleScores: `scores_top_count` is an integer, 0 standing for absent. Both take the
  default of 5, as `|| 5` does.
- Text.Normalise: `toLowerCase` is modelled on ASCII letters only; the full Unicode case
  mapping is not modelled. `trim` strips exactly the ECMAScript white space and line terminator
  characters.
- Values.Value: TOML numbers are integers, dates and floats are not modelled. Object property
  lookup sees only a table's own keys, so the inherited names of `Object.prototype` (such as
  `constructor`) are not modelled as `bankFiles` keys.
- Questions.Stamp: spreading a non-table entry copies no fields. The index keys that a string
  or an array entry would spread (`{..."ab"}` has keys `0` and `1`, `{...["a"]}` has key `0`)
  are not modelled.
- Values.Value: strings are sequences of Unicode code points, not of UTF-16 code units. `s[0]`
  (`Values.Index0`) of a string that starts with a character outside the Basic Multilingual Plane
  is that whole character here, where JavaScript gives a lone surrogate; the skip and answer
  replies show the difference.
- Shuffle.Random: `Math.floor(Math.random() * (i + 1))` is any index in `0..i`, chosen by the
  parameter. Uniformity and other probabilistic claims are not modelled.
- Questions.SetBankHidden: the message of a failed read of a missing file is the Node.js
  `ENOENT` text; other read, parse and write failures carry their message as a parameter.
- The `require.main` command-line block of `verify-bank.js`.
- Paths.Join: the POSIX rules only; the Windows rules of `path.join` are not modelled.

=== FILE: bank_validator.dfy ===
/** The question-bank validator: checks one parsed bank file against the bank file contract and
    reports every violation, then sorts a directory's bank files into valid and broken. */
module BankValidator {
  import opened Wrappers
  import opened Values
  import opened Files
  import Paths
  import Text

  /** One validation failure; `Message` gives the text the validator reports. Question numbers
      are 1-based, answer indices 0-based. */
  datatype BankError =
    | FileNotFound(path: string)
    | CannotRead(reason: string)
    | ParseError(reason: string)
    | MissingField(field: Field)
    | NotAString(field: Field, got: string)
    | HiddenNotBoolean(got: string)
    | QuestionsNotArray
    | MissingQuestion(qNum: nat)
    | QuestionNotString(qNum: nat)
    | MissingAnswer(qNum: nat)
    | AnswerNotArray(qNum: nat)
    | AnswerEmpty(qNum: nat)
    | AnswerNotString(qNum: nat, ansIndex: nat)

  function Message(e: BankError): string {
    match e
    case FileNotFound(path) => "File not found: " + path
    case CannotRead(reason) => "Cannot read file: " + reason
    case ParseError(reason) => "TOML parse error: " + reason
    case MissingField(field) => "Missing required field: " + Key(field)
    case NotAString(field, got) => "Field \"" + Key(field) + "\" must be a string, got " + got
    case HiddenNotBoolean(got) => "Field \"hidden\" must be a boolean, got " + got
    case QuestionsNotArray => "Field \"questions\" must be an array"
    case MissingQuestion(n) => QuestionLabel(n) + "missing \"question\" field"
    case QuestionNotString(n) => QuestionLabel(n) + "\"question\" must be a string"
    case MissingAnswer(n) => QuestionLabel(n) + "missing \"answer\" field"
    case AnswerNotArray(n) => QuestionLabel(n) + "\"answer\" must be an array"
    case AnswerEmpty(n) => QuestionLabel(n) + "\"answer\" array cannot be empty"
    case AnswerNotString(n, i) =>
      QuestionLabel(n) + "answer[" + Text.NatToString(i) + "] must be a string"
  }

  function QuestionLabel(n: nat): string {
    "Question " + Text.NatToString(n) + ": "
  }

  /** The top-level fields of a bank file the validator checks. */
  datatype Field = Id | Name | Difficulty | Topic | Hidden | Questions

  /** The TOML key of a field. */
  function Key(f: Field): string {
    match f
    case Id => "id"
    case Name => "name"
    case Difficulty => "difficulty"
    case Topic => "topic"
    case Hidden => "hidden"
    case Questions => "questions"
  }

  /** The metadata fields that must be strings, in the order they are checked. */
  const RequiredStrings: seq<Field> := [Id, Name, Difficulty, Topic]

  /* ---------------------------------------------------------------- the contract */

  /** One question entry satisfies the bank file contract. */
  predicate WellFormedQuestion(q: Value) {
    var a := Get(q, "answer");
    && Get(q, "question").Str?
    && a.Arr?
    && |a.items| > 0
    && forall i :: 0 <= i < |a.items| ==> a.items[i].Str?
  }

  /** A parsed bank satisfies the bank file contract: string metadata, boolean `hidden`, and an
      array of well-formed questions. */
  predicate WellFormedBank(data: Value) {
    var qs := Get(data, "questions");
    && (forall f :: f in RequiredStrings ==> Get(data, Key(f)).Str?)
    && Get(data, "hidden").Bool?
    && qs.Arr?
    && forall k :: 0 <= k < |qs.items| ==> WellFormedQuestion(qs.items[k])
  }

  /* ---------------------------------------------------------------- report order */

  /** Position of a field among the checks. */
  function FieldRank(field: Field): nat {
    match field
    case Id => 1
    case Name => 2
    case Difficulty => 3
    case Topic => 4
    case Hidden => 5
    case Questions => 6
  }

  /** Sort key of an error, major part: file errors, then each metadata field, `hidden`,
      `questions`, then question 1, 2, ... */
  function Major(e: BankError): nat {
    match e
    case FileNotFound(_) => 0
    case CannotRead(_) => 0
    case ParseError(_) => 0
    case MissingField(f) => FieldRank(f)
    case NotAString(f, _) => FieldRank(f)
    case HiddenNotBoolean(_) => 5
    case QuestionsNotArray => 6
    case MissingQuestion(n) => 6 + n
    case QuestionNotString(n) => 6 + n
    case MissingAnswer(n) => 6 + n
    case AnswerNotArray(n) => 6 + n
    case AnswerEmpty(n) => 6 + n
    case AnswerNotString(n, _) => 6 + n
  }

  /** Sort key, minor part, within one question: the `question` field, the `answer` field,
      then answer element 0, 1, ... */
  function Minor(e: BankError): nat {
    match e
    case MissingAnswer(_) => 1
    case AnswerNotArray(_) => 1
    case AnswerEmpty(_) => 1
    case AnswerNotString(_, i) => 2 + i
    case _ => 0
  }

  predicate Precedes(a: BankError, b: BankError) {
    Major(a) < Major(b) || (Major(a) == Major(b) && Minor(a) < Minor(b))
  }

  /** Errors strictly increase in report order; in particular no check reports twice. */
  predicate Ordered(es: seq<BankError>) {
    forall i, j :: 0 <= i < j < |es| ==> Precedes(es[i], es[j])
  }

  lemma OrderedAppend(a: seq<BankError>, b: seq<BankError>)
    requires Ordered(a) && Ordered(b)
    requires forall x, y :: x in a && y in b ==> Precedes(x, y)
    ensures Ordered(a + b)
  {
    forall i, j | 0 <= i < j < |a + b|
      ensures Precedes((a + b)[i], (a + b)[j])
    {
      if j < |a| {
      } else if i >= |a| {
        assert (a + b)[i] == b[i - |a|] && (a + b)[j] == b[j - |a|];
      } else {
        assert (a + b)[i] in a && (a + b)[j] in b;
      }
    }
  }

  /* ---------------------------------------------------------------- the checks */

  /** A required string field: `Missing` when undefined, a type error when not a string. */
  function StringFieldErrors(data: Value, field: Field): seq<BankError> {
    var v := Get(data, Key(field));
    if v == Undefined then [MissingField(field)]
    else if !v.Str? then [NotAString(field, TypeOf(v))]
    else []
  }

  /** The loop over `RequiredStrings`, in order. */
  function MetadataErrors(data: Value): seq<BankError> {
    StringFieldErrors(data, Id) + StringFieldErrors(data, Name)
      + StringFieldErrors(data, Difficulty) + StringFieldErrors(data, Topic)
  }

  /** `hidden` must be present and boolean. */
  function HiddenErrors(data: Value): seq<BankError> {
    var v := Get(data, "hidden");
    if v == Undefined then [MissingField(Hidden)]
    else if !v.Bool? then [HiddenNotBoolean(TypeOf(v))]
    else []
  }

  /** The element check of one answer array, element 0 first. */
  function AnswerElementErrors(qNum: nat, answers: seq<Value>): seq<BankError> {
    if |answers| == 0 then []
    else
      var n := |answers| - 1;
      AnswerElementErrors(qNum, answers[..n]) + (if answers[n].Str? then [] else [AnswerNotString(qNum, n)])
  }

  /** The `question` field check of one entry. */
  function QuestionTextErrors(q: Value, qNum: nat): seq<BankError> {
    var text := Get(q, "question");
    if text == Undefined then [MissingQuestion(qNum)]
    else if !text.Str? then [QuestionNotString(qNum)]
    else []
  }

  /** The `answer` field check of one entry: present, an array, non-empty, then each element. */
  function AnswerErrors(a: Value, qNum: nat): seq<BankError> {
    if a == Undefined then [MissingAnswer(qNum)]
    else if !a.Arr? then [AnswerNotArray(qNum)]
    else if |a.items| == 0 then [AnswerEmpty(qNum)]
    else AnswerElementErrors(qNum, a.items)
  }

  /** The checks of one question entry `q`, numbered `qNum` in messages. */
  function QuestionEntryErrors(q: Value, qNum: nat): seq<BankError> {
    QuestionTextErrors(q, qNum) + AnswerErrors(Get(q, "answer"), qNum)
  }

  /** Concatenation of per-entry error lists, first entry first. */
  function Flatten(ess: seq<seq<BankError>>): seq<BankError> {
    if |ess| == 0 then [] else Flatten(ess[..|ess| - 1]) + ess[|ess| - 1]
  }

  /** The error lists of the entries of a questions array, entry `k` numbered `k + 1`. */
  function EntryErrors(qs: seq<Value>): (ess: seq<seq<BankError>>)
    ensures |ess| == |qs|
  {
    seq(|qs|, k requires 0 <= k < |qs| => QuestionEntryErrors(qs[k], k + 1))
  }

  /** Entry `k` of the loop is checked as question `k + 1`. */
  lemma EntryAt(qs: seq<Value>, k: nat)
    requires k < |qs|
    ensures EntryErrors(qs)[k] == QuestionEntryErrors(qs[k], k + 1)
  {
  }

  /** `questions` must be truthy, then an array, then every entry is checked. */
  function QuestionsErrors(data: Value): seq<BankError> {
    var qs := Get(data, "questions");
    if !Truthy(qs) then [MissingField(Questions)]
    else if !qs.Arr? then [QuestionsNotArray]
    else Flatten(EntryErrors(qs.items))
  }

  /** The field checks of a parsed bank, in check order: metadata, `hidden`, `questions`. */
  function ParsedErrors(data: Value): seq<BankError> {
    MetadataErrors(data) + HiddenErrors(data) + QuestionsErrors(data)
  }

  /* ---------------------------------------------------------------- what each check reports */

  /** A required string field reports at most one error: `Missing` exactly when the field is
      undefined, a type error carrying its `typeof` exactly when it is present but not a
      string. */
  lemma StringFieldExact(data: Value, field: Field)
    ensures |StringFieldErrors(data, field)| <= 1
    ensures |StringFieldErrors(data, field)| == 0 <==> Get(data, Key(field)).Str?
    ensures forall e :: e in StringFieldErrors(data, field) ==>
      Major(e) == FieldRank(field) && Minor(e) == 0 && (e.MissingField? || e.NotAString?) && e.field == field
    ensures MissingField(field) in StringFieldErrors(data, field) <==> Get(data, Key(field)) == Undefined
    ensures forall got :: NotAString(field, got) in StringFieldErrors(data, field) <==>
      Get(data, Key(field)) != Undefined && !Get(data, Key(field)).Str? && got == TypeOf(Get(data, Key(field)))
  {
  }

  /** The metadata checks report only metadata errors, at most one per field. */
  lemma MetadataKeyed(data: Value)
    ensures forall e :: e in MetadataErrors(data) ==> 1 <= Major(e) <= 4 && (e.MissingField? || e.NotAString?)
  {
    StringFieldExact(data, Id);
    StringFieldExact(data, Name);
    StringFieldExact(data, Difficulty);
    StringFieldExact(data, Topic);
  }

  /** `hidden` reports `Missing` when undefined, a type error carrying its `typeof` when it is
      not a boolean, and nothing otherwise. */
  lemma HiddenExact(data: Value)
    ensures |HiddenErrors(data)| <= 1
    ensures |HiddenErrors(data)| == 0 <==> Get(data, "hidden").Bool?
    ensures forall e :: e in HiddenErrors(data) ==> Major(e) == 5
    ensures MissingField(Hidden) in HiddenErrors(data) <==> Get(data, "hidden") == Undefined
    ensures forall got :: HiddenNotBoolean(got) in HiddenErrors(data) <==>
      Get(data, "hidden") != Undefined && !Get(data, "hidden").Bool? && got == TypeOf(Get(data, "hidden"))
  {
  }

  /** The element check reports exactly the non-string elements, each once, by index. */
  lemma {:induction false} AnswerElementExact(qNum: nat, answers: seq<Value>)
    ensures forall e :: e in AnswerElementErrors(qNum, answers) ==>
      e.AnswerNotString? && e.qNum == qNum && e.ansIndex < |answers| && !answers[e.ansIndex].Str?
    ensures forall i :: 0 <= i < |answers| && !answers[i].Str? ==>
      AnswerNotString(qNum, i) in AnswerElementErrors(qNum, answers)
  {
    if |answers| > 0 {
      var n := |answers| - 1;
      AnswerElementExact(qNum, answers[..n]);
      assert forall i :: 0 <= i < n ==> answers[..n][i] == answers[i];
    }
  }

  /** The `question` check reports at most one error, and none exactly when the text is a
      string. */
  lemma QuestionTextExact(q: Value, qNum: nat)
    ensures |QuestionTextErrors(q, qNum)| <= 1
    ensures |QuestionTextErrors(q, qNum)| == 0 <==> Get(q, "question").Str?
    ensures forall e :: e in QuestionTextErrors(q, qNum) ==> Major(e) == 6 + qNum && Minor(e) == 0
  {
  }

  /** The `answer` check reports errors of question `qNum` only, after its `question` check;
      when the answer is not a non-empty array it reports exactly one, not an element error. */
  lemma AnswerKeyed(a: Value, qNum: nat)
    ensures forall e :: e in AnswerErrors(a, qNum) ==> Major(e) == 6 + qNum && Minor(e) >= 1
    ensures !(a.Arr? && |a.items| > 0) ==> |AnswerErrors(a, qNum)| == 1 && !AnswerErrors(a, qNum)[0].AnswerNotString?
  {
    if a.Arr? && |a.items| > 0 {
      AnswerElementExact(qNum, a.items);
    }
  }

  /** The answer checks pass exactly when the answer is a non-empty array of strings. */
  lemma AnswerErrorsEmpty(a: Value, qNum: nat)
    ensures |AnswerErrors(a, qNum)| == 0 <==>
      a.Arr? && |a.items| > 0 && forall i :: 0 <= i < |a.items| ==> a.items[i].Str?
  {
    if a.Arr? && |a.items| > 0 {
      var r := AnswerElementErrors(qNum, a.items);
      AnswerElementExact(qNum, a.items);
      assert |r| > 0 ==> r[0] in r;
    }
  }

  /** Every error of an entry carries that entry's number. */
  lemma QuestionEntryKeyed(q: Value, qNum: nat)
    ensures forall e :: e in QuestionEntryErrors(q, qNum) ==> Major(e) == 6 + qNum
  {
    QuestionTextExact(q, qNum);
    AnswerKeyed(Get(q, "answer"), qNum);
  }

  /** An entry passes exactly when it is a well-formed question. */
  lemma QuestionEntryEmpty(q: Value, qNum: nat)
    ensures |QuestionEntryErrors(q, qNum)| == 0 <==> WellFormedQuestion(q)
  {
    QuestionTextExact(q, qNum);
    AnswerErrorsEmpty(Get(q, "answer"), qNum);
  }

  /** Within one entry, the element errors are those of its answer array. */
  lemma EntryAnswerElement(q: Value, qNum: nat, i: nat)
    ensures AnswerNotString(qNum, i) in QuestionEntryErrors(q, qNum) <==>
      && Get(q, "answer").Arr?
      && i < |Get(q, "answer").items|
      && !Get(q, "answer").items[i].Str?
  {
    var a := Get(q, "answer");
    QuestionTextExact(q, qNum);
    AnswerKeyed(a, qNum);
    if a.Arr? && |a.items| > 0 {
      AnswerElementExact(qNum, a.items);
    }
    assert AnswerNotString(qNum, i) !in QuestionTextErrors(q, qNum);
  }

  /* ---------------------------------------------------------------- the entry loop */

  /** Entry `k`'s errors all carry question number `k + 1`. */
  predicate Keyed(ess: seq<seq<BankError>>) {
    forall k, x :: 0 <= k < |ess| && x in ess[k] ==> Major(x) == 7 + k
  }

  lemma EntryErrorsKeyed(qs: seq<Value>)
    ensures Keyed(EntryErrors(qs))
  {
    forall k, x | 0 <= k < |qs| && x in EntryErrors(qs)[k]
      ensures Major(x) == 7 + k
    {
      QuestionEntryKeyed(qs[k], k + 1);
    }
  }

  /** The flattened list is empty exactly when every entry's list is. */
  lemma {:induction false} FlattenEmpty(ess: seq<seq<BankError>>)
    ensures |Flatten(ess)| == 0 <==> forall k :: 0 <= k < |ess| ==> |ess[k]| == 0
  {
    if |ess| > 0 {
      var n := |ess| - 1;
      FlattenEmpty(ess[..n]);
      assert forall k :: 0 <= k < n ==> ess[..n][k] == ess[k];
    }
  }

  lemma KeyedPrefix(ess: seq<seq<BankError>>, n: nat)
    requires Keyed(ess) && n <= |ess|
    ensures Keyed(ess[..n])
  {
    forall k, x | 0 <= k < n && x in ess[..n][k]
      ensures Major(x) == 7 + k
    {
      assert ess[..n][k] == ess[k];
    }
  }

  /** With keyed entries, an error is in the flattened list exactly when it is in the list of
      the entry its number names. */
  lemma {:induction false} FlattenMember(ess: seq<seq<BankError>>, e: BankError)
    requires Keyed(ess)
    ensures e in Flatten(ess) <==> 7 <= Major(e) < 7 + |ess| && e in ess[Major(e) - 7]
  {
    if |ess| > 0 {
      var n := |ess| - 1;
      KeyedPrefix(ess, n);
      FlattenMember(ess[..n], e);
      if 7 <= Major(e) < 7 + n {
        assert ess[..n][Major(e) - 7] == ess[Major(e) - 7];
      }
    }
  }

  /** With keyed, ordered entries, the flattened list is ordered. */
  lemma {:induction false} FlattenOrdered(ess: seq<seq<BankError>>)
    requires Keyed(ess)
    requires forall k :: 0 <= k < |ess| ==> Ordered(ess[k])
    ensures Ordered(Flatten(ess))
  {
    if |ess| > 0 {
      var n := |ess| - 1;
      var prior := Flatten(ess[..n]);
      KeyedPrefix(ess, n);
      assert forall k :: 0 <= k < n ==> ess[..n][k] == ess[k];
      FlattenOrdered(ess[..n]);
      forall x | x in prior
        ensures Major(x) < 7 + n
      {
        FlattenMember(ess[..n], x);
      }
      OrderedAppend(prior, ess[n]);
    }
  }

  /** The `questions` stage reports `Missing questions`, the array error, or errors of
      question 1 and later. */
  lemma QuestionsKeyed(data: Value)
    ensures forall e :: e in QuestionsErrors(data) ==> Major(e) >= 6
    ensures forall e :: e in QuestionsErrors(data) ==>
      e == MissingField(Questions) || e == QuestionsNotArray || Major(e) >= 7
  {
    var qs := Get(data, "questions");
    if qs.Arr? {
      EntryLoopBound(qs.items);
    }
  }

  /* ---------------------------------------------------------------- soundness and completeness */

  /** The metadata checks pass exactly when every required field is a string. */
  lemma MetadataEmpty(data: Value)
    ensures |MetadataErrors(data)| == 0 <==> forall f :: f in RequiredStrings ==> Get(data, Key(f)).Str?
  {
    StringFieldExact(data, Id);
    StringFieldExact(data, Name);
    StringFieldExact(data, Difficulty);
    StringFieldExact(data, Topic);
    assert forall f :: f in RequiredStrings <==> f != Hidden && f != Questions;
  }

  /** The `questions` checks pass exactly when it is an array of well-formed questions. */
  lemma QuestionsEmpty(data: Value)
    ensures |QuestionsErrors(data)| == 0 <==>
      Get(data, "questions").Arr? &&
      forall k :: 0 <= k < |Get(data, "questions").items| ==> WellFormedQuestion(Get(data, "questions").items[k])
  {
    var qs := Get(data, "questions");
    if qs.Arr? {
      EntryLoopEmpty(qs.items);
    }
  }

  /** The entry loop passes exactly when every entry is a well-formed question. */
  lemma {:induction false} EntryLoopEmpty(qs: seq<Value>)
    ensures |Flatten(EntryErrors(qs))| == 0 <==> forall k :: 0 <= k < |qs| ==> WellFormedQuestion(qs[k])
  {
    var ess := EntryErrors(qs);
    FlattenEmpty(ess);
    forall k | 0 <= k < |qs|
      ensures |ess[k]| == 0 <==> WellFormedQuestion(qs[k])
    {
      EntryEmpty(qs, k);
    }
  }

  /** Entry `k` has no errors exactly when it is well formed. */
  lemma EntryEmpty(qs: seq<Value>, k: nat)
    requires k < |qs|
    ensures |EntryErrors(qs)[k]| == 0 <==> WellFormedQuestion(qs[k])
  {
    EntryAt(qs, k);
    QuestionEntryEmpty(qs[k], k + 1);
  }

  lemma MetadataOrdered(data: Value)
    ensures Ordered(MetadataErrors(data))
  {
    var e0 := StringFieldErrors(data, Id);
    var e1 := StringFieldErrors(data, Name);
    var e2 := StringFieldErrors(data, Difficulty);
    var e3 := StringFieldErrors(data, Topic);
    StringFieldExact(data, Id);
    StringFieldExact(data, Name);
    StringFieldExact(data, Difficulty);
    StringFieldExact(data, Topic);
    OrderedAppend(e0, e1);
    OrderedAppend(e0 + e1, e2);
    OrderedAppend(e0 + e1 + e2, e3);
  }

  /** The element errors name increasing indices. */
  lemma {:induction false} AnswerElementErrorsOrdered(qNum: nat, answers: seq<Value>)
    ensures Ordered(AnswerElementErrors(qNum, answers))
  {
    if |answers| > 0 {
      var n := |answers| - 1;
      AnswerElementErrorsOrdered(qNum, answers[..n]);
      AnswerElementExact(qNum, answers[..n]);
      var here := if answers[n].Str? then [] else [AnswerNotString(qNum, n)];
      OrderedAppend(AnswerElementErrors(qNum, answers[..n]), here);
    }
  }

  /** Within one entry: the `question` check, then the `answer` check, then element 0, 1, ... */
  lemma QuestionEntryOrdered(q: Value, qNum: nat)
    ensures Ordered(QuestionEntryErrors(q, qNum))
  {
    var a := Get(q, "answer");
    if a.Arr? && |a.items| > 0 {
      AnswerElementErrorsOrdered(qNum, a.items);
    }
    QuestionTextExact(q, qNum);
    AnswerKeyed(a, qNum);
    OrderedAppend(QuestionTextErrors(q, qNum), AnswerErrors(a, qNum));
  }

  /** The `questions` stage reports question 1's errors first, then question 2's, and so on. */
  lemma QuestionsOrdered(data: Value)
    ensures Ordered(QuestionsErrors(data))
  {
    var qs := Get(data, "questions");
    if qs.Arr? {
      var ess := EntryErrors(qs.items);
      EntryErrorsKeyed(qs.items);
      forall k | 0 <= k < |ess|
        ensures Ordered(ess[k])
      {
        EntryOrdered(qs.items, k);
      }
      FlattenOrdered(ess);
    }
  }

  /** Entry `k`'s errors come in check order. */
  lemma EntryOrdered(qs: seq<Value>, k: nat)
    requires k < |qs|
    ensures Ordered(EntryErrors(qs)[k])
  {
    EntryAt(qs, k);
    QuestionEntryOrdered(qs[k], k + 1);
  }

  /* ---------------------------------------------------------------- verifyBank */

  /** The field checks report in strictly increasing check order; no check reports twice. */
  lemma ParsedErrorsOrdered(data: Value)
    ensures Ordered(ParsedErrors(data))
  {
    MetadataOrdered(data);
    MetadataKeyed(data);
    HiddenExact(data);
    QuestionsOrdered(data);
    QuestionsKeyed(data);
    OrderedAppend(MetadataErrors(data), HiddenErrors(data));
    OrderedAppend(MetadataErrors(data) + HiddenErrors(data), QuestionsErrors(data));
  }

  /** The field checks report nothing exactly when the bank meets the contract. */
  lemma ParsedErrorsValid(data: Value)
    ensures |ParsedErrors(data)| == 0 <==> WellFormedBank(data)
  {
    MetadataEmpty(data);
    HiddenExact(data);
    QuestionsEmpty(data);
  }

  /** `verifyBank(path)`. A file that is missing, unreadable or unparsable yields exactly one
      error and nothing else is checked; a parsed file is reported valid exactly when it meets
      the bank file contract, with every failing check reported once, in check order. */
  function VerifyBank(path: string, file: FileState): (errors: seq<BankError>)
    ensures file == Missing ==> errors == [FileNotFound(path)]
    ensures file.Unreadable? ==> errors == [CannotRead(file.reason)]
    ensures file.Unparsable? ==> errors == [ParseError(file.reason)]
    ensures file.Parsed? ==> errors == ParsedErrors(file.data)
    ensures file.Parsed? ==> Ordered(errors)
    ensures file.Parsed? ==> (|errors| == 0 <==> WellFormedBank(file.data))
  {
    match file
    case Missing => [FileNotFound(path)]
    case Unreadable(reason) => [CannotRead(reason)]
    case Unparsable(reason) => [ParseError(reason)]
    case Parsed(data) => ParsedErrorsOrdered(data); ParsedErrorsValid(data); ParsedErrors(data)
  }

  /** Membership in the report is membership in one of its three stages. */
  lemma InParsed(data: Value, e: BankError)
    ensures e in ParsedErrors(data) <==>
      e in MetadataErrors(data) || e in HiddenErrors(data) || e in QuestionsErrors(data)
  {
    var m := MetadataErrors(data);
    var h := HiddenErrors(data);
    var q := QuestionsErrors(data);
    assert ParsedErrors(data) == (m + h) + q;
  }

  /** Which stage reports an error is fixed by its sort key, so a fact about one stage's
      errors is a fact about the whole report. */
  lemma StageSplit(data: Value, e: BankError)
    ensures Major(e) <= 4 ==> (e in ParsedErrors(data) <==> e in MetadataErrors(data))
    ensures Major(e) == 5 ==> (e in ParsedErrors(data) <==> e in HiddenErrors(data))
    ensures Major(e) >= 6 ==> (e in ParsedErrors(data) <==> e in QuestionsErrors(data))
  {
    InParsed(data, e);
    MetadataKeyed(data);
    HiddenExact(data);
    QuestionsKeyed(data);
  }

  /** Each required string field reports at most one metadata error: `Missing` exactly when the
      field is undefined, a type error carrying its `typeof` exactly when it is present but not
      a string. */
  lemma MetadataFieldExact(data: Value, field: Field, got: string)
    requires field in RequiredStrings
    ensures MissingField(field) in MetadataErrors(data) <==> Get(data, Key(field)) == Undefined
    ensures NotAString(field, got) in MetadataErrors(data) <==>
      Get(data, Key(field)) != Undefined && !Get(data, Key(field)).Str? && got == TypeOf(Get(data, Key(field)))
  {
    StringFieldExact(data, Id);
    StringFieldExact(data, Name);
    StringFieldExact(data, Difficulty);
    StringFieldExact(data, Topic);
    StringFieldExact(data, field);
    InMetadata(data, MissingField(field));
    InMetadata(data, NotAString(field, got));
  }

  /** Membership in the metadata stage is membership in one field's check. */
  lemma InMetadata(data: Value, e: BankError)
    ensures e in MetadataErrors(data) <==>
      || e in StringFieldErrors(data, Id)
      || e in StringFieldErrors(data, Name)
      || e in StringFieldErrors(data, Difficulty)
      || e in StringFieldErrors(data, Topic)
  {
    var e0 := StringFieldErrors(data, Id);
    var e1 := StringFieldErrors(data, Name);
    var e2 := StringFieldErrors(data, Difficulty);
    var e3 := StringFieldErrors(data, Topic);
    assert MetadataErrors(data) == ((e0 + e1) + e2) + e3;
  }

  /** The `questions` stage reports `Missing` when the field is falsy and the array error when
      it is truthy but not an array. */
  lemma QuestionsFieldExact(data: Value)
    ensures MissingField(Questions) in QuestionsErrors(data) <==> !Truthy(Get(data, "questions"))
    ensures QuestionsNotArray in QuestionsErrors(data) <==>
      Truthy(Get(data, "questions")) && !Get(data, "questions").Arr?
  {
    var qs := Get(data, "questions");
    if qs.Arr? {
      EntryLoopBound(qs.items);
    }
  }

  /** The `questions` stage reports element `i` (0-based) of question `qNum` (1-based) exactly
      when that question's answer is a non-empty array whose element `i` is not a string. */
  lemma AnswerElementErrorExact(data: Value, qNum: nat, i: nat)
    requires Get(data, "questions").Arr?
    ensures var qs := Get(data, "questions").items;
      AnswerNotString(qNum, i) in QuestionsErrors(data) <==>
        && 1 <= qNum <= |qs|
        && Get(qs[qNum - 1], "answer").Arr?
        && i < |Get(qs[qNum - 1], "answer").items|
        && !Get(qs[qNum - 1], "answer").items[i].Str?
  {
    var qs := Get(data, "questions").items;
    assert QuestionsErrors(data) == Flatten(EntryErrors(qs));
    EntryLoopElement(qs, qNum, i);
  }

  /** The entry loop reports errors of question 1 and later only. */
  lemma EntryLoopBound(qs: seq<Value>)
    ensures forall e :: e in Flatten(EntryErrors(qs)) ==> Major(e) >= 7
  {
    EntryErrorsKeyed(qs);
    forall e | e in Flatten(EntryErrors(qs))
      ensures Major(e) >= 7
    {
      FlattenMember(EntryErrors(qs), e);
    }
  }

  /** The entry loop reports an error exactly when the entry its number names reports it. */
  lemma EntryLoopMember(qs: seq<Value>, e: BankError)
    ensures e in Flatten(EntryErrors(qs)) <==>
      7 <= Major(e) < 7 + |qs| && e in QuestionEntryErrors(qs[Major(e) - 7], Major(e) - 6)
  {
    var ess := EntryErrors(qs);
    EntryErrorsKeyed(qs);
    FlattenMember(ess, e);
    var k := Major(e) - 7;
    if 0 <= k < |qs| {
      EntryAt(qs, k);
    }
  }

  /** The entry loop reports element `i` of question `qNum` exactly when that entry reports it. */
  lemma EntryLoopElement(qs: seq<Value>, qNum: nat, i: nat)
    ensures AnswerNotString(qNum, i) in Flatten(EntryErrors(qs)) <==>
      && 1 <= qNum <= |qs|
      && Get(qs[qNum - 1], "answer").Arr?
      && i < |Get(qs[qNum - 1], "answer").items|
      && !Get(qs[qNum - 1], "answer").items[i].Str?
  {
    var e := AnswerNotString(qNum, i);
    assert Major(e) - 7 == qNum - 1;
    EntryLoopMember(qs, e);
    if 1 <= qNum <= |qs| {
      EntryAnswerElement(qs[qNum - 1], qNum, i);
    }
  }

  /* ---------------------------------------------------------------- verifyAllBanks */

  /** A broken bank file with the errors the validator found in it. */
  datatype Broken = Broken(file: string, errors: seq<BankError>)

  function BrokenFiles(broken: seq<Broken>): (files: seq<string>)
    ensures |files| == |broken|
    ensures forall k :: 0 <= k < |broken| ==> files[k] == broken[k].file
  {
    seq(|broken|, k requires 0 <= k < |broken| => broken[k].file)
  }

  /** The error list `verifyBank(path.join(dir, file))` gives each file of directory `dir`. */
  function ErrorsIn(dir: string, disk: Disk): string -> seq<BankError> {
    file => VerifyBank(Paths.Join(dir, file), Read(disk, file))
  }

  /** The valid files of `files`, in listing order: those whose error list `errors` is empty. */
  function ValidIn(files: seq<string>, errors: string -> seq<BankError>): seq<string>
    decreases |files|
  {
    if |files| == 0 then []
    else
      var n := |files| - 1;
      ValidIn(files[..n], errors) + (if |errors(files[n])| == 0 then [files[n]] else [])
  }

  /** The broken files of `files` with their errors, in listing order. */
  function BrokenIn(files: seq<string>, errors: string -> seq<BankError>): seq<Broken>
    decreases |files|
  {
    if |files| == 0 then []
    else
      var n := |files| - 1;
      BrokenIn(files[..n], errors) + (if |errors(files[n])| == 0 then [] else [Broken(files[n], errors(files[n]))])
  }

  /** One more file extends the two lists by that file's verdict. */
  lemma SplitStep(files: seq<string>, errors: string -> seq<BankError>, k: nat)
    requires k < |files|
    ensures ValidIn(files[..k + 1], errors)
      == ValidIn(files[..k], errors) + (if |errors(files[k])| == 0 then [files[k]] else [])
    ensures BrokenIn(files[..k + 1], errors)
      == BrokenIn(files[..k], errors) + (if |errors(files[k])| == 0 then [] else [Broken(files[k], errors(files[k]))])
  {
    assert files[..k + 1][..k] == files[..k];
  }

  /** Every file of `files` is in exactly one of the two ordered lists. */
  lemma {:induction false} SplitCount(files: seq<string>, errors: string -> seq<BankError>)
    ensures |ValidIn(files, errors)| + |BrokenIn(files, errors)| == |files|
    decreases |files|
  {
    if |files| > 0 {
      SplitCount(files[..|files| - 1], errors);
    }
  }

  /** The valid list holds files of `files` whose error list is empty. */
  lemma {:induction false} ValidInSound(files: seq<string>, errors: string -> seq<BankError>)
    ensures forall f :: f in ValidIn(files, errors) ==> f in files && |errors(f)| == 0
    decreases |files|
  {
    if |files| > 0 {
      var n := |files| - 1;
      ValidInSound(files[..n], errors);
      assert files == files[..n] + [files[n]];
    }
  }

  /** The broken list holds files of `files`, each with its own non-empty error list. */
  lemma {:induction false} BrokenInSound(files: seq<string>, errors: string -> seq<BankError>)
    ensures forall b :: b in BrokenIn(files, errors) ==>
      b.file in files && b.errors == errors(b.file) && |b.errors| > 0
    decreases |files|
  {
    if |files| > 0 {
      var n := |files| - 1;
      BrokenInSound(files[..n], errors);
      assert files == files[..n] + [files[n]];
    }
  }

  lemma BrokenFilesAppend(a: seq<Broken>, b: seq<Broken>)
    ensures BrokenFiles(a + b) == BrokenFiles(a) + BrokenFiles(b)
  {
  }

  /** Every file of `files` is in the valid list or the broken one. */
  lemma {:induction false} SplitComplete(files: seq<string>, errors: string -> seq<BankError>)
    ensures forall f :: f in files ==> f in ValidIn(files, errors) || f in BrokenFiles(BrokenIn(files, errors))
    decreases |files|
  {
    if |files| > 0 {
      var n := |files| - 1;
      var file := files[n];
      var broken := BrokenIn(files[..n], errors);
      var last := if |errors(file)| == 0 then [] else [Broken(file, errors(file))];
      SplitComplete(files[..n], errors);
      BrokenFilesAppend(broken, last);
      assert files == files[..n] + [file];
    }
  }

  /** `verifyAllBanks(dir)`: every bank file of the listing lands in exactly one of `valid` and
      `broken`, in `broken` exactly when its error list is non-empty, each list in listing order
      (`ValidIn`, `BrokenIn`). Each file is validated under the path `path.join(dir, file)`. An unreadable
      directory yields two empty lists. */
  method VerifyAllBanks(dir: string, disk: Disk) returns (valid: seq<string>, broken: seq<Broken>)
    ensures disk.listing == None ==> valid == [] && broken == []
    ensures disk.listing.Some? ==> |valid| + |broken| == |TomlFiles(disk.listing.value)|
    ensures forall f :: f in valid ==>
      f in TomlFiles(disk.listing.value) && |VerifyBank(Paths.Join(dir, f), Read(disk, f))| == 0
    ensures forall b :: b in broken ==>
      && b.file in TomlFiles(disk.listing.value)
      && b.errors == VerifyBank(Paths.Join(dir, b.file), Read(disk, b.file))
      && |b.errors| > 0
    ensures disk.listing.Some? ==> forall f :: f in TomlFiles(disk.listing.value) ==>
      f in valid || f in BrokenFiles(broken)
    ensures disk.listing.Some? ==>
      && valid == ValidIn(TomlFiles(disk.listing.value), ErrorsIn(dir, disk))
      && broken == BrokenIn(TomlFiles(disk.listing.value), ErrorsIn(dir, disk))
  {
    valid := [];
    broken := [];
    if disk.listing == None {
      return;
    }
    var files := TomlFiles(disk.listing.value);
    var errs := ErrorsIn(dir, disk);
    var k := 0;
    while k < |files|
      invariant 0 <= k <= |files|
      invariant valid == ValidIn(files[..k], errs)
      invariant broken == BrokenIn(files[..k], errs)
    {
      var file := files[k];
      var errors := VerifyBank(Paths.Join(dir, file), Read(disk, file));
      assert errors == errs(file);
      SplitStep(files, errs, k);
      if |errors| == 0 {
        valid := valid + [file];
      } else {
        broken := broken + [Broken(file, errors)];
      }
      k := k + 1;
    }
    assert files[..k] == files;
    SplitCount(files, errs);
    ValidInSound(files, errs);
    BrokenInSound(files, errs);
    SplitComplete(files, errs);
  }
}

=== FILE: files.dfy ===
/** The questions directory, reduced to what the bot observes of it: whether it can be listed,
    the order of its entries, and what reading and parsing each file yields. */
module Files {
  import opened Wrappers
  import opened Values
  import Text

  /** The outcome of reading one file and parsing it as TOML. */
  datatype FileState =
    | Missing
    | Unreadable(reason: string)
    | Unparsable(reason: string)
    | Parsed(data: Value)

  /** `listing` is `None` when the directory cannot be read; `contents` maps a file name to
      what reading it yields. */
  datatype Disk = Disk(listing: Option<seq<string>>, contents: map<string, FileState>)

  function Read(d: Disk, name: string): FileState {
    if name in d.contents then d.contents[name] else Missing
  }

  /** Writes `toml.stringify(data)` to `name`; reading it back parses to `data` again. */
  function Write(d: Disk, name: string, data: Value): (d': Disk)
    ensures d'.listing == d.listing
    ensures Read(d', name) == Parsed(data)
    ensures forall other :: other != name ==> Read(d', other) == Read(d, other)
  {
    d.(contents := d.contents[name := Parsed(data)])
  }

  predicate IsTomlName(name: string) {
    Text.EndsWith(name, ".toml")
  }

  /** `readdirSync(dir).filter(f => f.endsWith(".toml"))`: the bank files, in listing order. */
  function TomlFiles(names: seq<string>): (r: seq<string>)
    ensures forall f :: f in r <==> f in names && IsTomlName(f)
    ensures |r| <= |names|
  {
    if |names| == 0 then []
    else if IsTomlName(names[0]) then [names[0]] + TomlFiles(names[1..])
    else TomlFiles(names[1..])
  }

  /** A file name is a bank file name at most once when the directory lists each name once. */
  lemma {:induction false} TomlFilesDistinct(names: seq<string>)
    requires forall i, j :: 0 <= i < j < |names| ==> names[i] != names[j]
    ensures forall i, j :: 0 <= i < j < |TomlFiles(names)| ==> TomlFiles(names)[i] != TomlFiles(names)[j]
  {
    if |names| > 0 {
      TomlFilesDistinct(names[1..]);
      assert names[0] !in names[1..];
    }
  }
}

=== FILE: paths.dfy ===
/** Node's POSIX `path.join`: the non-empty arguments joined with `/`, then normalised. The
    normalisation drops empty and `.` segments, lets `..` cancel the segment before it, and
    keeps a leading and a trailing `/`. */
module Paths {
  import Text

  /** Normalises the segments `segs`, appending them to the already normal `acc`. A `..` that
      has nothing to cancel is kept in a relative path and dropped at the root of an absolute
      one. */
  function Resolve(acc: seq<string>, segs: seq<string>, absolute: bool): seq<string>
    decreases |segs|
  {
    if |segs| == 0 then acc
    else
      var s := segs[0];
      if s == "" || s == "." then Resolve(acc, segs[1..], absolute)
      else if s == ".." then
        if |acc| > 0 && acc[|acc| - 1] != ".." then Resolve(acc[..|acc| - 1], segs[1..], absolute)
        else if absolute then Resolve(acc, segs[1..], absolute)
        else Resolve(acc + [".."], segs[1..], absolute)
      else Resolve(acc + [s], segs[1..], absolute)
  }

  /** `path.normalize(p)`. */
  function Normalize(p: string): string {
    if |p| == 0 then "."
    else
      var absolute := p[0] == '/';
      var trailing := p[|p| - 1] == '/';
      var segs := Resolve([], Text.Split(p, '/'), absolute);
      if |segs| == 0 then (if absolute then "/" else if trailing then "./" else ".")
      else
        var body := Text.Join(segs, '/') + (if trailing then "/" else "");
        if absolute then "/" + body else body
  }

  /** `path.join(dir, file)`. */
  function Join(dir: string, file: string): string {
    if |dir| == 0 then Normalize(file)
    else if |file| == 0 then Normalize(dir)
    else Normalize(dir + "/" + file)
  }

  /** A plain segment: a non-empty name that is neither `.` nor `..` and holds no `/`. */
  predicate PlainSegment(s: string) {
    s != "" && s != "." && s != ".." && '/' !in s
  }

  /** A relative path of plain segments, such as `questions` or `data/questions`. */
  predicate PlainPath(p: string) {
    forall k :: 0 <= k < |Text.Split(p, '/')| ==> PlainSegment(Text.Split(p, '/')[k])
  }

  /** Plain segments are already normal: they are appended unchanged. */
  lemma {:induction false} ResolvePlain(acc: seq<string>, segs: seq<string>, absolute: bool)
    requires forall k :: 0 <= k < |segs| ==> PlainSegment(segs[k])
    ensures Resolve(acc, segs, absolute) == acc + segs
    decreases |segs|
  {
    if |segs| > 0 {
      ResolvePlain(acc + [segs[0]], segs[1..], absolute);
      assert acc + [segs[0]] + segs[1..] == acc + segs;
    }
  }

  /** Joining one more piece onto a join. */
  lemma {:induction false} JoinSnoc(parts: seq<string>, last: string, sep: char)
    requires |parts| >= 1
    ensures Text.Join(parts + [last], sep) == Text.Join(parts, sep) + [sep] + last
    decreases |parts|
  {
    if |parts| > 1 {
      assert (parts + [last])[1..] == parts[1..] + [last];
      JoinSnoc(parts[1..], last, sep);
    }
  }

  /** A path whose first piece is not empty does not start at the root. */
  lemma FirstPieceNotRoot(p: string)
    requires |p| > 0 && Text.Split(p, '/')[0] != ""
    ensures p[0] != '/'
  {
  }

  /** Splitting `dir + "/" + file` adds `file` as one more piece. */
  lemma SplitJoined(dir: string, file: string)
    requires '/' !in file
    ensures Text.Split(dir + "/" + file, '/') == Text.Split(dir, '/') + [file]
  {
    var parts := Text.Split(dir, '/');
    Text.JoinSplit(dir, '/');
    JoinSnoc(parts, file, '/');
    assert dir + "/" + file == Text.Join(parts + [file], '/');
    Text.SplitJoin(parts + [file], '/');
  }

  /** Joining a plain file name onto a plain directory is plain concatenation with `/`. */
  lemma JoinPlain(dir: string, file: string)
    requires dir != "" && PlainPath(dir) && PlainSegment(file)
    ensures Join(dir, file) == dir + "/" + file
  {
    var p := dir + "/" + file;
    var parts := Text.Split(dir, '/');
    SplitJoined(dir, file);
    assert Text.Split(p, '/')[0] == parts[0] != "";
    FirstPieceNotRoot(p);
    ResolvePlain([], parts + [file], false);
    assert [] + (parts + [file]) == parts + [file];
    Text.JoinSplit(dir, '/');
    JoinSnoc(parts, file, '/');
    assert p[|p| - 1] == file[|file| - 1];
  }

  /** A leading `./` is dropped: `path.join("./questions", f)` is `questions/f`. */
  lemma JoinDropsDot(dir: string, file: string)
    requires dir != "" && PlainPath(dir) && PlainSegment(file)
    ensures Join("./" + dir, file) == dir + "/" + file
  {
    var p := "./" + dir + "/" + file;
    var parts := Text.Split(dir, '/');
    SplitJoined("./" + dir, file);
    assert "./" + dir == "." + ['/'] + dir;
    Text.SplitAfterPiece(".", '/', dir);
    var segs := ["."] + parts + [file];
    assert Text.Split(p, '/') == segs;
    assert Resolve([], segs, false) == Resolve([], parts + [file], false) by {
      assert segs[1..] == parts + [file];
    }
    ResolvePlain([], parts + [file], false);
    assert [] + (parts + [file]) == parts + [file];
    Text.JoinSplit(dir, '/');
    JoinSnoc(parts, file, '/');
    assert p[|p| - 1] == file[|file| - 1];
  }

  /** A trailing `/` on the directory is not doubled: `path.join("q/", f)` is `q/f`. */
  lemma JoinDropsTrailingSlash(dir: string, file: string)
    requires dir != "" && PlainPath(dir) && PlainSegment(file)
    ensures Join(dir + "/", file) == dir + "/" + file
  {
    var p := dir + "/" + "/" + file;
    var parts := Text.Split(dir, '/');
    SplitJoined(dir + "/", file);
    SplitJoined(dir, "");
    assert dir + "/" == dir + "/" + "";
    var segs := parts + [""] + [file];
    assert Text.Split(p, '/') == segs;
    assert Text.Split(p, '/')[0] == parts[0] != "";
    FirstPieceNotRoot(p);
    ResolveSkipsEmpty([], parts, file);
    ResolvePlain([], parts + [file], false);
    assert [] + (parts + [file]) == parts + [file];
    Text.JoinSplit(dir, '/');
    JoinSnoc(parts, file, '/');
    assert p[|p| - 1] == file[|file| - 1];
  }

  /** An empty segment between plain ones changes nothing. */
  lemma {:induction false} ResolveSkipsEmpty(acc: seq<string>, parts: seq<string>, file: string)
    requires forall k :: 0 <= k < |parts| ==> PlainSegment(parts[k])
    ensures Resolve(acc, parts + [""] + [file], false) == Resolve(acc, parts + [file], false)
    decreases |parts|
  {
    if |parts| == 0 {
      assert parts + [""] + [file] == ["", file];
      assert ["", file][1..] == [file];
      assert parts + [file] == [file];
    } else {
      assert (parts + [""] + [file])[1..] == parts[1..] + [""] + [file];
      assert (parts + [file])[1..] == parts[1..] + [file];
      ResolveSkipsEmpty(acc + [parts[0]], parts[1..], file);
    }
  }
}

=== FILE: questions.dfy ===
/** The question store of `questions.js`: loading the bank files into a catalog, the shuffled
    pool with its cursor, hiding and unhiding a bank, and answer matching. The module-level
    variables become a `Store` value that every operation takes and returns; the directory
    becomes a `Files.Disk` and `Math.random` a `Shuffle.Random` parameter. */
module Questions {
  import opened Wrappers
  import opened Values
  import opened Files
  import Text
  import Shuffle

  /** `{ id: data.id, name: data.name }`, one entry of `loadedBanks` or `unloadedBanks`. */
  datatype BankRef = BankRef(id: Value, name: Value)

  /** What a load rebuilds: `allQuestions`, `loadedBanks`, `unloadedBanks` and `bankFiles`,
      which maps a bank id (as a property key) to its file name. */
  datatype Catalog = Catalog(
    all: seq<Value>,
    loaded: seq<BankRef>,
    unloaded: seq<BankRef>,
    bankFiles: map<string, string>)

  const EmptyCatalog: Catalog := Catalog([], [], [], map[])

  /** The module state: the catalog, `questionPool` and `currentIndex`. */
  datatype Store = Store(catalog: Catalog, pool: seq<Value>, cursor: nat)

  const InitialStore: Store := Store(EmptyCatalog, [], 0)

  /** `getQuestionCount()`. */
  function QuestionCount(s: Store): nat {
    |s.catalog.all|
  }

  /* ---------------------------------------------------------------- one bank */

  /** `data.id` used as a property key of `bankFiles`. */
  function IdKey(data: Value): string {
    ToJsString(Get(data, "id"))
  }

  /** `data.hidden === true`. */
  predicate IsHidden(data: Value) {
    Get(data, "hidden") == Bool(true)
  }

  function RefOf(data: Value): BankRef {
    BankRef(Get(data, "id"), Get(data, "name"))
  }

  /** The own properties an object spread copies from a question entry. */
  function OwnFields(q: Value): map<string, Value> {
    if q.Obj? then q.fields else map[]
  }

  /** `{ ...q, bank: data.name, difficulty: data.difficulty, topic: data.topic }`. */
  function Stamp(q: Value, data: Value): Value {
    Obj(OwnFields(q)["bank" := Get(data, "name")]["difficulty" := Get(data, "difficulty")]["topic" := Get(data, "topic")])
  }

  /** A stamped question is a table that keeps the entry's text and answers and carries its
      bank's name, difficulty and topic. */
  lemma StampFields(q: Value, data: Value)
    ensures Stamp(q, data).Obj?
    ensures Get(Stamp(q, data), "bank") == Get(data, "name")
    ensures Get(Stamp(q, data), "difficulty") == Get(data, "difficulty")
    ensures Get(Stamp(q, data), "topic") == Get(data, "topic")
    ensures q.Obj? ==> Get(Stamp(q, data), "question") == Get(q, "question")
    ensures q.Obj? ==> Get(Stamp(q, data), "answer") == Get(q, "answer")
  {
  }

  function StampAll(items: seq<Value>, data: Value): seq<Value> {
    seq(|items|, i requires 0 <= i < |items| => Stamp(items[i], data))
  }

  /** The entries `data.questions.forEach` visits; none when `questions` is not an array. */
  function QuestionItems(data: Value): seq<Value> {
    var qs := Get(data, "questions");
    if qs.Arr? then qs.items else []
  }

  /** A visible bank whose `questions` is truthy but not an array: `data.questions.forEach` is
      not a function there and the load throws. */
  predicate QuestionsThrow(data: Value) {
    var qs := Get(data, "questions");
    !IsHidden(data) && Truthy(qs) && !qs.Arr?
  }

  /** The body of the `forEach` over the bank files, for one parsed file. `Failure` carries the
      catalog as far as it got before the throw. */
  function AddBank(c: Catalog, file: string, data: Value): Result<Catalog, Catalog> {
    var c1 := c.(bankFiles := c.bankFiles[IdKey(data) := file]);
    if IsHidden(data) then Success(c1.(unloaded := c1.unloaded + [RefOf(data)]))
    else
      var c2 := c1.(loaded := c1.loaded + [RefOf(data)]);
      var qs := Get(data, "questions");
      if !Truthy(qs) then Success(c2)
      else if qs.Arr? then Success(c2.(all := c2.all + StampAll(qs.items, data)))
      else Failure(c2)
  }

  /** One file: reading or parsing it can throw before anything is recorded. */
  function LoadFile(c: Catalog, disk: Disk, file: string): Result<Catalog, Catalog> {
    match Read(disk, file)
    case Parsed(data) => AddBank(c, file, data)
    case _ => Failure(c)
  }

  /** The `forEach` over the bank files, in listing order, stopping at the first throw. */
  function LoadFiles(c: Catalog, disk: Disk, files: seq<string>): Result<Catalog, Catalog>
    decreases |files|
  {
    if |files| == 0 then Success(c)
    else
      match LoadFile(c, disk, files[0])
      case Failure(partial) => Failure(partial)
      case Success(c') => LoadFiles(c', disk, files[1..])
  }

  datatype Loaded = Loaded(store: Store, ok: bool)

  /** `loadQuestions()`. The catalog is cleared first and rebuilt file by file; when a file
      throws, the catalog stays as far as it got and the pool and cursor are not touched. */
  function LoadQuestions(s: Store, disk: Disk, random: Shuffle.Random): (r: Loaded)
    ensures r.ok ==> r.store.cursor == 0 && multiset(r.store.pool) == multiset(r.store.catalog.all)
    ensures !r.ok ==> r.store.pool == s.pool && r.store.cursor == s.cursor
  {
    match disk.listing
    case None => Loaded(s.(catalog := EmptyCatalog), false)
    case Some(names) =>
      match LoadFiles(EmptyCatalog, disk, TomlFiles(names))
      case Failure(partial) => Loaded(s.(catalog := partial), false)
      case Success(c) => Loaded(Store(c, Shuffle.Shuffle(c.all, random), 0), true)
  }

  /* ---------------------------------------------------------------- reference catalog */

  /** The parsed record of a file; `Undefined` when it does not parse. */
  function BankData(disk: Disk, file: string): Value {
    match Read(disk, file)
    case Parsed(data) => data
    case _ => Undefined
  }

  function Banks(disk: Disk, files: seq<string>): seq<Value> {
    seq(|files|, k requires 0 <= k < |files| => BankData(disk, files[k]))
  }

  /** A file the load gets through: it parses, and it is hidden or its questions are absent or
      an array. */
  predicate Loadable(disk: Disk, file: string) {
    Read(disk, file).Parsed? && !QuestionsThrow(Read(disk, file).data)
  }

  predicate AllLoadable(disk: Disk, files: seq<string>) {
    forall k :: 0 <= k < |files| ==> Loadable(disk, files[k])
  }

  /** What one bank adds to `loadedBanks`. */
  function ShownRef(data: Value): seq<BankRef> {
    if IsHidden(data) then [] else [RefOf(data)]
  }

  /** What one bank adds to `unloadedBanks`. */
  function HiddenRef(data: Value): seq<BankRef> {
    if IsHidden(data) then [RefOf(data)] else []
  }

  /** What one bank adds to `allQuestions`. */
  function BankQuestions(data: Value): seq<Value> {
    if IsHidden(data) then [] else StampAll(QuestionItems(data), data)
  }

  /** The visible banks, in order. */
  function ShownRefs(ds: seq<Value>): seq<BankRef> {
    if |ds| == 0 then [] else ShownRef(ds[0]) + ShownRefs(ds[1..])
  }

  /** The hidden banks, in order. */
  function HiddenRefs(ds: seq<Value>): seq<BankRef> {
    if |ds| == 0 then [] else HiddenRef(ds[0]) + HiddenRefs(ds[1..])
  }

  /** The stamped questions of the visible banks, bank by bank. */
  function ShownQuestions(ds: seq<Value>): seq<Value> {
    if |ds| == 0 then [] else BankQuestions(ds[0]) + ShownQuestions(ds[1..])
  }

  /** How many questions a bank contributes. */
  function Contribution(data: Value): nat {
    if IsHidden(data) then 0 else |QuestionItems(data)|
  }

  /** The number of questions in the visible banks. */
  function BankCount(ds: seq<Value>): nat {
    if |ds| == 0 then 0 else Contribution(ds[0]) + BankCount(ds[1..])
  }

  /** The ids of all banks, hidden or not, as property keys. */
  function IdKeys(ds: seq<Value>): set<string> {
    set d | d in ds :: IdKey(d)
  }

  lemma BanksTail(disk: Disk, files: seq<string>)
    requires |files| > 0
    ensures Banks(disk, files)[0] == BankData(disk, files[0])
    ensures Banks(disk, files[1..]) == Banks(disk, files)[1..]
  {
  }

  /** A load gets through exactly when every bank file is loadable. */
  lemma {:induction false} LoadFilesSucceeds(c: Catalog, disk: Disk, files: seq<string>)
    ensures LoadFiles(c, disk, files).Success? <==> AllLoadable(disk, files)
    decreases |files|
  {
    if |files| > 0 {
      assert LoadFile(c, disk, files[0]).Success? <==> Loadable(disk, files[0]);
      assert AllLoadable(disk, files) <==> Loadable(disk, files[0]) && AllLoadable(disk, files[1..]) by {
        if Loadable(disk, files[0]) && AllLoadable(disk, files[1..]) {
          forall k | 0 <= k < |files| ensures Loadable(disk, files[k]) {
            if k > 0 { assert files[k] == files[1..][k - 1]; }
          }
        }
      }
      match LoadFile(c, disk, files[0]) {
        case Failure(_) =>
        case Success(c') => LoadFilesSucceeds(c', disk, files[1..]);
      }
    }
  }

  /** What one loadable file adds to the catalog. */
  lemma LoadFileReference(c: Catalog, disk: Disk, file: string)
    requires Loadable(disk, file)
    ensures LoadFile(c, disk, file).Success?
    ensures LoadFile(c, disk, file).value.all == c.all + BankQuestions(BankData(disk, file))
    ensures LoadFile(c, disk, file).value.loaded == c.loaded + ShownRef(BankData(disk, file))
    ensures LoadFile(c, disk, file).value.unloaded == c.unloaded + HiddenRef(BankData(disk, file))
    ensures LoadFile(c, disk, file).value.bankFiles == c.bankFiles[IdKey(BankData(disk, file)) := file]
  {
  }

  lemma AppendAssoc<T>(a: seq<T>, b: seq<T>, c: seq<T>)
    ensures (a + b) + c == a + (b + c)
  {
  }

  lemma AllLoadableTail(disk: Disk, files: seq<string>)
    requires |files| > 0 && AllLoadable(disk, files)
    ensures Loadable(disk, files[0]) && AllLoadable(disk, files[1..])
  {
    forall k | 0 <= k < |files| - 1 ensures Loadable(disk, files[1..][k]) {
      assert files[1..][k] == files[k + 1];
    }
  }

  /** A load that gets through collects the reference questions. */
  lemma {:induction false} LoadFilesAll(c: Catalog, disk: Disk, files: seq<string>)
    requires AllLoadable(disk, files)
    ensures LoadFiles(c, disk, files).Success?
    ensures LoadFiles(c, disk, files).value.all == c.all + ShownQuestions(Banks(disk, files))
    decreases |files|
  {
    if |files| == 0 {
      assert Banks(disk, files) == [];
    } else {
      BanksTail(disk, files);
      AllLoadableTail(disk, files);
      LoadFileReference(c, disk, files[0]);
      var c' := LoadFile(c, disk, files[0]).value;
      LoadFilesAll(c', disk, files[1..]);
      var ds := Banks(disk, files);
      assert ShownQuestions(ds) == BankQuestions(ds[0]) + ShownQuestions(ds[1..]);
      AppendAssoc(c.all, BankQuestions(ds[0]), ShownQuestions(ds[1..]));
    }
  }

  /** A load that gets through lists the visible banks in file order. */
  lemma {:induction false} LoadFilesLoaded(c: Catalog, disk: Disk, files: seq<string>)
    requires AllLoadable(disk, files)
    ensures LoadFiles(c, disk, files).Success?
    ensures LoadFiles(c, disk, files).value.loaded == c.loaded + ShownRefs(Banks(disk, files))
    decreases |files|
  {
    if |files| == 0 {
      assert Banks(disk, files) == [];
    } else {
      BanksTail(disk, files);
      AllLoadableTail(disk, files);
      LoadFileReference(c, disk, files[0]);
      var c' := LoadFile(c, disk, files[0]).value;
      LoadFilesLoaded(c', disk, files[1..]);
      var ds := Banks(disk, files);
      assert ShownRefs(ds) == ShownRef(ds[0]) + ShownRefs(ds[1..]);
      AppendAssoc(c.loaded, ShownRef(ds[0]), ShownRefs(ds[1..]));
    }
  }

  /** A load that gets through lists the hidden banks in file order. */
  lemma {:induction false} LoadFilesUnloaded(c: Catalog, disk: Disk, files: seq<string>)
    requires AllLoadable(disk, files)
    ensures LoadFiles(c, disk, files).Success?
    ensures LoadFiles(c, disk, files).value.unloaded == c.unloaded + HiddenRefs(Banks(disk, files))
    decreases |files|
  {
    if |files| == 0 {
      assert Banks(disk, files) == [];
    } else {
      BanksTail(disk, files);
      AllLoadableTail(disk, files);
      LoadFileReference(c, disk, files[0]);
      var c' := LoadFile(c, disk, files[0]).value;
      LoadFilesUnloaded(c', disk, files[1..]);
      var ds := Banks(disk, files);
      assert HiddenRefs(ds) == HiddenRef(ds[0]) + HiddenRefs(ds[1..]);
      AppendAssoc(c.unloaded, HiddenRef(ds[0]), HiddenRefs(ds[1..]));
    }
  }

  /** A load that gets through builds exactly the reference catalog: the visible banks' stamped
      questions, the visible and hidden banks in file order. */
  lemma LoadFilesReference(c: Catalog, disk: Disk, files: seq<string>)
    requires AllLoadable(disk, files)
    ensures LoadFiles(c, disk, files).Success?
    ensures LoadFiles(c, disk, files).value.all == c.all + ShownQuestions(Banks(disk, files))
    ensures LoadFiles(c, disk, files).value.loaded == c.loaded + ShownRefs(Banks(disk, files))
    ensures LoadFiles(c, disk, files).value.unloaded == c.unloaded + HiddenRefs(Banks(disk, files))
  {
    LoadFilesAll(c, disk, files);
    LoadFilesLoaded(c, disk, files);
    LoadFilesUnloaded(c, disk, files);
  }

  /** Every bank id of a load that gets through, hidden banks included, is a key of
      `bankFiles`, and nothing else is added. */
  lemma {:induction false} BankFilesKeys(c: Catalog, disk: Disk, files: seq<string>, key: string)
    requires AllLoadable(disk, files)
    ensures LoadFiles(c, disk, files).Success?
    ensures key in LoadFiles(c, disk, files).value.bankFiles <==> key in c.bankFiles || key in IdKeys(Banks(disk, files))
    decreases |files|
  {
    LoadFilesSucceeds(c, disk, files);
    if |files| > 0 {
      var ds := Banks(disk, files);
      BanksTail(disk, files);
      LoadFileReference(c, disk, files[0]);
      var c' := LoadFile(c, disk, files[0]).value;
      LoadFilesSucceeds(c', disk, files[1..]);
      BankFilesKeys(c', disk, files[1..], key);
      assert IdKeys(ds) == {IdKey(ds[0])} + IdKeys(ds[1..]) by {
        assert ds == [ds[0]] + ds[1..];
        forall d | d in ds[1..] ensures d in ds { }
      }
    } else {
      assert Banks(disk, files) == [];
    }
  }

  /** Every file name in `bankFiles` after a load that gets through is one of the bank files
      (or was already there). */
  lemma {:induction false} BankFilesFromFiles(c: Catalog, disk: Disk, files: seq<string>, key: string)
    requires AllLoadable(disk, files)
    ensures LoadFiles(c, disk, files).Success?
    ensures key in LoadFiles(c, disk, files).value.bankFiles ==>
      (|| LoadFiles(c, disk, files).value.bankFiles[key] in files
       || (key in c.bankFiles && LoadFiles(c, disk, files).value.bankFiles[key] == c.bankFiles[key]))
    decreases |files|
  {
    LoadFilesSucceeds(c, disk, files);
    if |files| > 0 {
      LoadFileReference(c, disk, files[0]);
      var c' := LoadFile(c, disk, files[0]).value;
      LoadFilesSucceeds(c', disk, files[1..]);
      BankFilesFromFiles(c', disk, files[1..], key);
    }
  }

  /** A key no bank file uses keeps the entry it had before the load. */
  lemma {:induction false} BankFilesUntouched(c: Catalog, disk: Disk, files: seq<string>, key: string)
    requires AllLoadable(disk, files)
    requires forall m :: 0 <= m < |files| ==> IdKey(BankData(disk, files[m])) != key
    requires key in c.bankFiles
    ensures LoadFiles(c, disk, files).Success?
    ensures key in LoadFiles(c, disk, files).value.bankFiles
    ensures LoadFiles(c, disk, files).value.bankFiles[key] == c.bankFiles[key]
    decreases |files|
  {
    LoadFilesSucceeds(c, disk, files);
    if |files| > 0 {
      LoadFileReference(c, disk, files[0]);
      var c' := LoadFile(c, disk, files[0]).value;
      LoadFilesSucceeds(c', disk, files[1..]);
      BankFilesUntouched(c', disk, files[1..], key);
    }
  }

  /** When several bank files share an id, the last one wins: a file whose id no later file
      repeats is the one `bankFiles` names for it. */
  lemma {:induction false} BankFilesLastWins(c: Catalog, disk: Disk, files: seq<string>, k: nat)
    requires AllLoadable(disk, files)
    requires k < |files|
    requires forall m :: k < m < |files| ==> IdKey(BankData(disk, files[m])) != IdKey(BankData(disk, files[k]))
    ensures LoadFiles(c, disk, files).Success?
    ensures IdKey(BankData(disk, files[k])) in LoadFiles(c, disk, files).value.bankFiles
    ensures LoadFiles(c, disk, files).value.bankFiles[IdKey(BankData(disk, files[k]))] == files[k]
    decreases |files|
  {
    LoadFilesSucceeds(c, disk, files);
    LoadFileReference(c, disk, files[0]);
    var c' := LoadFile(c, disk, files[0]).value;
    LoadFilesSucceeds(c', disk, files[1..]);
    if k == 0 {
      BankFilesUntouched(c', disk, files[1..], IdKey(BankData(disk, files[0])));
    } else {
      BankFilesLastWins(c', disk, files[1..], k - 1);
    }
  }

  /** The reference count is the number of reference questions. */
  lemma {:induction false} ShownQuestionsCount(ds: seq<Value>)
    ensures |ShownQuestions(ds)| == BankCount(ds)
  {
    if |ds| > 0 {
      ShownQuestionsCount(ds[1..]);
    }
  }

  /** `x` is one of the stamped entries of the visible bank `data`. */
  predicate StampedFrom(data: Value, x: Value) {
    !IsHidden(data) && exists i :: 0 <= i < |QuestionItems(data)| && x == Stamp(QuestionItems(data)[i], data)
  }

  /** What one bank adds is exactly its stamped entries, and only when it is visible. */
  lemma BankQuestionsMember(data: Value, x: Value)
    ensures x in BankQuestions(data) <==> StampedFrom(data, x)
  {
    if x in BankQuestions(data) {
      var i :| 0 <= i < |BankQuestions(data)| && BankQuestions(data)[i] == x;
      assert x == Stamp(QuestionItems(data)[i], data);
    }
    if StampedFrom(data, x) {
      var i :| 0 <= i < |QuestionItems(data)| && x == Stamp(QuestionItems(data)[i], data);
      assert BankQuestions(data)[i] == x;
    }
  }

  /** Coverage: the reference questions are exactly the stamped entries of the visible banks. */
  lemma {:induction false} ShownQuestionsMember(ds: seq<Value>, x: Value)
    ensures x in ShownQuestions(ds) <==> exists k :: 0 <= k < |ds| && StampedFrom(ds[k], x)
  {
    if |ds| > 0 {
      ShownQuestionsMember(ds[1..], x);
      BankQuestionsMember(ds[0], x);
      assert ShownQuestions(ds) == BankQuestions(ds[0]) + ShownQuestions(ds[1..]);
      if exists k :: 0 <= k < |ds| && StampedFrom(ds[k], x) {
        var k :| 0 <= k < |ds| && StampedFrom(ds[k], x);
        if k > 0 {
          assert ds[1..][k - 1] == ds[k];
        }
      }
      if exists k :: 0 <= k < |ds| - 1 && StampedFrom(ds[1..][k], x) {
        var k :| 0 <= k < |ds| - 1 && StampedFrom(ds[1..][k], x);
        assert ds[1..][k] == ds[k + 1];
      }
    }
  }

  /** Every bank is listed exactly once, as visible or as hidden. */
  lemma {:induction false} RefsPartition(ds: seq<Value>)
    ensures |ShownRefs(ds)| + |HiddenRefs(ds)| == |ds|
    ensures forall k :: 0 <= k < |ds| && IsHidden(ds[k]) ==> RefOf(ds[k]) in HiddenRefs(ds)
    ensures forall k :: 0 <= k < |ds| && !IsHidden(ds[k]) ==> RefOf(ds[k]) in ShownRefs(ds)
  {
    if |ds| > 0 {
      RefsPartition(ds[1..]);
      forall k | 0 < k < |ds| ensures ds[k] == ds[1..][k - 1] { }
    }
  }

  /** A reference all of whose banks are hidden is not among the visible ones, and one all of
      whose banks are visible is not among the hidden ones. */
  lemma {:induction false} RefsOneSide(ds: seq<Value>, x: BankRef)
    ensures (forall j :: 0 <= j < |ds| && RefOf(ds[j]) == x ==> IsHidden(ds[j])) ==> x !in ShownRefs(ds)
    ensures (forall j :: 0 <= j < |ds| && RefOf(ds[j]) == x ==> !IsHidden(ds[j])) ==> x !in HiddenRefs(ds)
  {
    if |ds| > 0 {
      RefsOneSide(ds[1..], x);
      forall j | 0 <= j < |ds| - 1
        ensures ds[1..][j] == ds[j + 1]
      {
      }
    }
  }

  /** Replacing one bank record changes the count by the difference of the two contributions. */
  lemma {:induction false} BankCountUpdate(ds: seq<Value>, k: nat, d: Value)
    requires k < |ds|
    ensures BankCount(ds[k := d]) + Contribution(ds[k]) == BankCount(ds) + Contribution(d)
  {
    if k == 0 {
      assert ds[k := d][1..] == ds[1..];
    } else {
      BankCountUpdate(ds[1..], k - 1, d);
      assert ds[k := d][1..] == ds[1..][k - 1 := d];
    }
  }

  /* ---------------------------------------------------------------- load, at store level */

  /** `loadQuestions` succeeds exactly when the directory can be listed and every bank file is
      loadable. */
  lemma LoadSucceeds(s: Store, disk: Disk, random: Shuffle.Random)
    ensures LoadQuestions(s, disk, random).ok
      <==> disk.listing.Some? && AllLoadable(disk, TomlFiles(disk.listing.value))
  {
    if disk.listing.Some? {
      LoadFilesSucceeds(EmptyCatalog, disk, TomlFiles(disk.listing.value));
    }
  }

  /** A load replaces the catalog wholesale: what it builds does not depend on the state
      before it. */
  lemma LoadReplaces(s1: Store, s2: Store, disk: Disk, random: Shuffle.Random)
    ensures LoadQuestions(s1, disk, random).ok == LoadQuestions(s2, disk, random).ok
    ensures LoadQuestions(s1, disk, random).store.catalog == LoadQuestions(s2, disk, random).store.catalog
    ensures LoadQuestions(s1, disk, random).ok ==> LoadQuestions(s1, disk, random).store == LoadQuestions(s2, disk, random).store
  {
  }

  /** A successful load holds the reference catalog, `getQuestionCount()` is the number of
      questions in the visible banks, and every bank is in exactly one of the two lists. */
  lemma LoadCatalog(s: Store, disk: Disk, random: Shuffle.Random)
    requires LoadQuestions(s, disk, random).ok
    ensures disk.listing.Some?
    ensures var ds := Banks(disk, TomlFiles(disk.listing.value));
      var c := LoadQuestions(s, disk, random).store.catalog;
      && c.all == ShownQuestions(ds)
      && c.loaded == ShownRefs(ds)
      && c.unloaded == HiddenRefs(ds)
      && |c.loaded| + |c.unloaded| == |TomlFiles(disk.listing.value)|
      && QuestionCount(LoadQuestions(s, disk, random).store) == BankCount(ds)
  {
    var files := TomlFiles(disk.listing.value);
    LoadSucceeds(s, disk, random);
    LoadFilesReference(EmptyCatalog, disk, files);
    ShownQuestionsCount(Banks(disk, files));
    RefsPartition(Banks(disk, files));
  }

  /* ---------------------------------------------------------------- drawing */

  datatype Draw = Draw(store: Store, question: Option<Value>)

  /** `getNextQuestion()`: `null` when nothing is loaded; otherwise the pool is reshuffled when
      it is empty or used up, and the question under the cursor is returned. */
  function NextQuestion(s: Store, random: Shuffle.Random): (r: Draw)
    ensures r.store.catalog == s.catalog
    ensures r.question.None? <==> |s.catalog.all| == 0
    ensures r.question.None? ==> r.store == s
    ensures r.question.Some? ==> 1 <= r.store.cursor <= |r.store.pool| && r.question.value == r.store.pool[r.store.cursor - 1]
    ensures s.cursor < |s.pool| ==> r.store.pool == s.pool
  {
    if |s.catalog.all| == 0 then Draw(s, None)
    else
      var s1 := if |s.pool| == 0 || s.cursor >= |s.pool|
        then s.(pool := Shuffle.Shuffle(s.catalog.all, random), cursor := 0)
        else s;
      Draw(s1.(cursor := s1.cursor + 1), Some(s1.pool[s1.cursor]))
  }

  /** The cursor never passes the end of the pool. */
  predicate CursorInPool(s: Store) {
    s.cursor <= |s.pool|
  }

  /** The pool holds the current questions, each once: true after a successful load. */
  predicate PoolCurrent(s: Store) {
    multiset(s.pool) == multiset(s.catalog.all)
  }

  /** A draw returns the next question of a pool in use, or reshuffles a used-up one and returns
      its first question. */
  lemma NextQuestionCases(s: Store, random: Shuffle.Random)
    requires |s.catalog.all| > 0
    ensures var r := NextQuestion(s, random);
      (if 0 < |s.pool| && s.cursor < |s.pool|
       then r.store.pool == s.pool && r.store.cursor == s.cursor + 1 && r.question == Some(s.pool[s.cursor])
       else (r.store.pool == Shuffle.Shuffle(s.catalog.all, random) && r.store.cursor == 1
             && r.question == Some(r.store.pool[0])))
  {
  }

  /** A draw from a current pool returns a loaded question and keeps the pool current. */
  lemma DrawFromCurrentPool(s: Store, random: Shuffle.Random)
    requires PoolCurrent(s)
    ensures PoolCurrent(NextQuestion(s, random).store)
    ensures NextQuestion(s, random).question.Some? ==> NextQuestion(s, random).question.value in s.catalog.all
  {
    var r := NextQuestion(s, random);
    if r.question.Some? {
      Shuffle.ShuffleIsPermutation(s.catalog.all, random);
      assert r.question.value in r.store.pool;
      assert r.question.value in multiset(r.store.pool);
    }
  }

  datatype Drawn = Drawn(store: Store, questions: seq<Value>)

  /** `|rs|` draws in a row, with the random source of each. */
  function Draws(s: Store, rs: seq<Shuffle.Random>): (r: Drawn)
    requires |s.catalog.all| > 0
    ensures r.store.catalog == s.catalog
    ensures |r.questions| == |rs|
    decreases |rs|
  {
    if |rs| == 0 then Drawn(s, [])
    else
      var d := NextQuestion(s, rs[0]);
      var rest := Draws(d.store, rs[1..]);
      Drawn(rest.store, [d.question.value] + rest.questions)
  }

  /** While the pool lasts, draws return its questions in order. */
  lemma {:induction false} DrawsFollowPool(s: Store, rs: seq<Shuffle.Random>)
    requires |s.catalog.all| > 0
    requires s.cursor + |rs| <= |s.pool|
    ensures Draws(s, rs).questions == s.pool[s.cursor..s.cursor + |rs|]
    decreases |rs|
  {
    if |rs| > 0 {
      var d := NextQuestion(s, rs[0]);
      NextQuestionCases(s, rs[0]);
      DrawsFollowPool(d.store, rs[1..]);
    }
  }

  /** After a load or a reshuffle, the next `getQuestionCount()` draws return every question
      exactly once. */
  lemma FreshPoolCoversAll(s: Store, rs: seq<Shuffle.Random>)
    requires |s.catalog.all| > 0 && s.cursor == 0 && PoolCurrent(s)
    requires |rs| == |s.catalog.all|
    ensures multiset(Draws(s, rs).questions) == multiset(s.catalog.all)
  {
    assert |s.pool| == |multiset(s.pool)| == |s.catalog.all|;
    DrawsFollowPool(s, rs);
    assert s.pool[0..|rs|] == s.pool;
  }

  /** A used-up pool is reshuffled on the next draw, and the draws that follow return every
      question exactly once. */
  lemma UsedUpPoolCoversAll(s: Store, rs: seq<Shuffle.Random>)
    requires |s.catalog.all| > 0
    requires |s.pool| == 0 || s.cursor >= |s.pool|
    requires |rs| == |s.catalog.all|
    ensures multiset(Draws(s, rs).questions) == multiset(s.catalog.all)
  {
    var renewed := Store(s.catalog, Shuffle.Shuffle(s.catalog.all, rs[0]), 0);
    assert NextQuestion(s, rs[0]) == NextQuestion(renewed, rs[0]);
    DrawsStep(s, rs);
    DrawsStep(renewed, rs);
    FreshPoolCoversAll(renewed, rs);
  }

  /** The first of several draws. */
  lemma DrawsStep(s: Store, rs: seq<Shuffle.Random>)
    requires |s.catalog.all| > 0 && |rs| > 0
    ensures Draws(s, rs).questions
      == [NextQuestion(s, rs[0]).question.value] + Draws(NextQuestion(s, rs[0]).store, rs[1..]).questions
  {
  }

  /** After a successful load, the next `getQuestionCount()` draws return every loaded question
      exactly once. */
  lemma LoadThenDrawAll(s: Store, disk: Disk, random: Shuffle.Random, rs: seq<Shuffle.Random>)
    requires LoadQuestions(s, disk, random).ok
    requires |rs| == QuestionCount(LoadQuestions(s, disk, random).store) > 0
    ensures multiset(Draws(LoadQuestions(s, disk, random).store, rs).questions)
      == multiset(LoadQuestions(s, disk, random).store.catalog.all)
  {
    FreshPoolCoversAll(LoadQuestions(s, disk, random).store, rs);
  }

  /* ---------------------------------------------------------------- tables only */

  /** Every question the store holds, in the catalog or in the pool, is a table: the entries
      are stamped when they are loaded. */
  predicate Tabled(s: Store) {
    && (forall x :: x in s.catalog.all ==> x.Obj?)
    && (forall x :: x in s.pool ==> x.Obj?)
  }

  lemma StampAllTables(items: seq<Value>, data: Value)
    ensures forall x :: x in StampAll(items, data) ==> x.Obj?
  {
  }

  /** Loading adds stamped entries only, whether or not it gets through. */
  lemma {:induction false} LoadFilesTabled(c: Catalog, disk: Disk, files: seq<string>)
    requires forall x :: x in c.all ==> x.Obj?
    ensures LoadFiles(c, disk, files).Success? ==> forall x :: x in LoadFiles(c, disk, files).value.all ==> x.Obj?
    ensures LoadFiles(c, disk, files).Failure? ==> forall x :: x in LoadFiles(c, disk, files).error.all ==> x.Obj?
    decreases |files|
  {
    if |files| > 0 {
      match Read(disk, files[0]) {
        case Parsed(data) =>
          StampAllTables(QuestionItems(data), data);
          match LoadFile(c, disk, files[0]) {
            case Failure(_) =>
            case Success(c') => LoadFilesTabled(c', disk, files[1..]);
          }
        case _ =>
      }
    }
  }

  /** A load keeps the store tables-only. */
  lemma LoadKeepsTabled(s: Store, disk: Disk, random: Shuffle.Random)
    requires Tabled(s)
    ensures Tabled(LoadQuestions(s, disk, random).store)
  {
    var r := LoadQuestions(s, disk, random);
    if disk.listing.Some? {
      LoadFilesTabled(EmptyCatalog, disk, TomlFiles(disk.listing.value));
      if r.ok {
        forall x | x in r.store.pool ensures x.Obj? {
          assert x in multiset(r.store.pool);
        }
      }
    }
  }

  /** A draw keeps the store tables-only and hands out a table. */
  lemma DrawKeepsTabled(s: Store, random: Shuffle.Random)
    requires Tabled(s)
    ensures Tabled(NextQuestion(s, random).store)
    ensures NextQuestion(s, random).question.Some? ==> NextQuestion(s, random).question.value.Obj?
  {
    if |s.catalog.all| > 0 && (|s.pool| == 0 || s.cursor >= |s.pool|) {
      var pool := Shuffle.Shuffle(s.catalog.all, random);
      forall x | x in pool ensures x.Obj? {
        assert x in multiset(pool);
      }
    }
  }

  /** A toggle keeps the store tables-only. */
  lemma ToggleKeepsTabled(s: Store, disk: Disk, bankId: string, hidden: bool, writeError: Option<string>,
                          random: Shuffle.Random)
    requires Tabled(s)
    ensures Tabled(SetBankHidden(s, disk, bankId, hidden, writeError, random).store)
  {
    var r := SetBankHidden(s, disk, bankId, hidden, writeError, random);
    if r.outcome.Done? {
      LoadKeepsTabled(s, r.disk, random);
    }
  }

  /* ---------------------------------------------------------------- answers */

  /** `checkAnswer(userAnswer, correctAnswers)`: `some` over the normalised correct answers. */
  function CheckAnswer(userAnswer: string, correctAnswers: seq<string>): bool {
    if |correctAnswers| == 0 then false
    else Text.Normalise(correctAnswers[0]) == Text.Normalise(userAnswer) || CheckAnswer(userAnswer, correctAnswers[1..])
  }

  /** An answer is accepted exactly when its normal form is the normal form of one of the
      correct answers. */
  lemma {:induction false} CheckAnswerExists(userAnswer: string, correctAnswers: seq<string>)
    ensures CheckAnswer(userAnswer, correctAnswers)
      <==> (exists k :: 0 <= k < |correctAnswers| && Text.Normalise(correctAnswers[k]) == Text.Normalise(userAnswer))
  {
    if |correctAnswers| > 0 {
      var tail := correctAnswers[1..];
      CheckAnswerExists(userAnswer, tail);
      if exists k :: 0 <= k < |correctAnswers| && Text.Normalise(correctAnswers[k]) == Text.Normalise(userAnswer) {
        var k :| 0 <= k < |correctAnswers| && Text.Normalise(correctAnswers[k]) == Text.Normalise(userAnswer);
        if k > 0 {
          assert tail[k - 1] == correctAnswers[k];
        }
      }
      if CheckAnswer(userAnswer, tail) {
        var k :| 0 <= k < |tail| && Text.Normalise(tail[k]) == Text.Normalise(userAnswer);
        assert correctAnswers[k + 1] == tail[k];
      }
    }
  }

  /** Case and surrounding white space of the player's answer never matter. */
  lemma CheckAnswerNormalised(userAnswer: string, correctAnswers: seq<string>)
    ensures CheckAnswer(Text.Normalise(userAnswer), correctAnswers) == CheckAnswer(userAnswer, correctAnswers)
  {
    Text.NormaliseIdempotent(userAnswer);
  }

  /* ---------------------------------------------------------------- hiding banks */

  datatype Outcome = Done | Failed(error: string)

  datatype Toggled = Toggled(store: Store, disk: Disk, outcome: Outcome)

  /** The `message` of the error `readFileSync` or `toml.parse` throws. */
  function ReadErrorMessage(file: string, state: FileState): string {
    match state
    case Missing => "ENOENT: no such file or directory, open './questions/" + file + "'"
    case Unreadable(reason) => reason
    case Unparsable(reason) => reason
    case Parsed(_) => ""
  }

  /** `setBankHidden(bankId, hidden)`. `writeError` is the message `writeFileSync` throws with,
      if it does; the result of the reload that follows a write is not looked at. */
  function SetBankHidden(s: Store, disk: Disk, bankId: string, hidden: bool, writeError: Option<string>,
                         random: Shuffle.Random): (r: Toggled)
    ensures r.outcome.Failed? ==> r.store == s && r.disk == disk
    ensures bankId !in s.catalog.bankFiles || s.catalog.bankFiles[bankId] == "" ==> r.outcome == Failed("Bank not found")
    ensures r.outcome.Done? ==> bankId in s.catalog.bankFiles && Read(disk, s.catalog.bankFiles[bankId]).Parsed?
    ensures r.outcome.Done? ==> r.disk.listing == disk.listing
    ensures bankId in s.catalog.bankFiles && s.catalog.bankFiles[bankId] != "" ==>
      var file := s.catalog.bankFiles[bankId];
      && (!Read(disk, file).Parsed? ==> r.outcome == Failed(ReadErrorMessage(file, Read(disk, file))))
      && (Read(disk, file).Parsed? && writeError.Some? ==> r.outcome == Failed(writeError.value))
      && (Read(disk, file).Parsed? && writeError.None? ==> r.outcome.Done?)
  {
    if bankId !in s.catalog.bankFiles || s.catalog.bankFiles[bankId] == "" then
      Toggled(s, disk, Failed("Bank not found"))
    else
      var file := s.catalog.bankFiles[bankId];
      match Read(disk, file)
      case Parsed(data) =>
        (match writeError
         case Some(message) => Toggled(s, disk, Failed(message))
         case None =>
           var disk' := Write(disk, file, SetField(data, "hidden", Bool(hidden)));
           Toggled(LoadQuestions(s, disk', random).store, disk', Done))
      case _ => Toggled(s, disk, Failed(ReadErrorMessage(file, Read(disk, file))))
  }

  /** No operation on the store moves the cursor past the end of the pool, so the `>=` test of
      `getNextQuestion` only ever sees a cursor equal to the pool's length. */
  lemma CursorStaysInPool(s: Store, disk: Disk, random: Shuffle.Random, bankId: string, hidden: bool,
                          writeError: Option<string>)
    requires CursorInPool(s)
    ensures CursorInPool(LoadQuestions(s, disk, random).store)
    ensures CursorInPool(NextQuestion(s, random).store)
    ensures CursorInPool(SetBankHidden(s, disk, bankId, hidden, writeError, random).store)
  {
  }

  /** A successful toggle writes the flag into the bank's file, leaves every other file as it
      was, and reloads from the new directory contents. */
  lemma ToggleWrites(s: Store, disk: Disk, bankId: string, hidden: bool, random: Shuffle.Random, other: string)
    requires SetBankHidden(s, disk, bankId, hidden, None, random).outcome.Done?
    ensures var file := s.catalog.bankFiles[bankId];
      var r := SetBankHidden(s, disk, bankId, hidden, None, random);
      && r.disk == Write(disk, file, SetField(BankData(disk, file), "hidden", Bool(hidden)))
      && (BankData(disk, file).Obj? ==> IsHidden(BankData(r.disk, file)) == hidden)
      && (other != file ==> Read(r.disk, other) == Read(disk, other))
      && r.store == LoadQuestions(s, r.disk, random).store
  {
  }

  /** The catalog of `s` is what a successful load of `disk` builds. */
  predicate LoadedFrom(s: Store, disk: Disk) {
    disk.listing.Some? && LoadFiles(EmptyCatalog, disk, TomlFiles(disk.listing.value)) == Success(s.catalog)
  }

  /** A store loaded from `disk` holds as many questions as the visible banks of `disk`. */
  lemma LoadedCount(s: Store, disk: Disk)
    requires LoadedFrom(s, disk)
    ensures QuestionCount(s) == BankCount(Banks(disk, TomlFiles(disk.listing.value)))
  {
    var files := TomlFiles(disk.listing.value);
    LoadFilesSucceeds(EmptyCatalog, disk, files);
    LoadFilesAll(EmptyCatalog, disk, files);
    ShownQuestionsCount(Banks(disk, files));
  }

  lemma LoadedAfterLoad(s: Store, disk: Disk, random: Shuffle.Random)
    requires LoadQuestions(s, disk, random).ok
    ensures LoadedFrom(LoadQuestions(s, disk, random).store, disk)
  {
  }

  /** Hiding a bank never makes a load fail that got through before. */
  lemma HideKeepsLoadable(disk: Disk, file: string, data: Value, files: seq<string>)
    requires AllLoadable(disk, files)
    requires IsHidden(data)
    ensures AllLoadable(Write(disk, file, data), files)
  {
    var disk' := Write(disk, file, data);
    forall k | 0 <= k < |files| ensures Loadable(disk', files[k]) {
      if files[k] != file {
        assert Read(disk', files[k]) == Read(disk, files[k]);
      }
    }
  }

  /** Writing one file of a directory that lists each name once changes one bank record. */
  lemma BanksAfterWrite(disk: Disk, files: seq<string>, k: nat, data: Value)
    requires k < |files|
    requires forall i, j :: 0 <= i < j < |files| ==> files[i] != files[j]
    ensures Banks(Write(disk, files[k], data), files) == Banks(disk, files)[k := data]
  {
    var disk' := Write(disk, files[k], data);
    forall m | 0 <= m < |files| ensures Banks(disk', files)[m] == Banks(disk, files)[k := data][m] {
      if m != k {
        assert files[m] != files[k];
        assert Read(disk', files[m]) == Read(disk, files[m]);
      }
    }
  }

  /** The file `bankFiles` names for a bank of a successful load is one of the bank files. */
  lemma LoadedFileListed(s: Store, disk: Disk, bankId: string)
    requires LoadedFrom(s, disk)
    requires bankId in s.catalog.bankFiles
    ensures s.catalog.bankFiles[bankId] in TomlFiles(disk.listing.value)
  {
    var files := TomlFiles(disk.listing.value);
    LoadFilesSucceeds(EmptyCatalog, disk, files);
    BankFilesFromFiles(EmptyCatalog, disk, files, bankId);
  }

  /** Once a load has got through, toggling any bank it mapped succeeds when the write does:
      the mapped file is a listed bank file, so its name is not empty and it parses. */
  lemma ToggleKnownSucceeds(s: Store, disk: Disk, bankId: string, hidden: bool, random: Shuffle.Random)
    requires LoadedFrom(s, disk)
    requires bankId in s.catalog.bankFiles
    ensures SetBankHidden(s, disk, bankId, hidden, None, random).outcome.Done?
  {
    var file := s.catalog.bankFiles[bankId];
    var files := TomlFiles(disk.listing.value);
    LoadedFileListed(s, disk, bankId);
    LoadFilesSucceeds(EmptyCatalog, disk, files);
    var k :| 0 <= k < |files| && files[k] == file;
    assert Loadable(disk, files[k]);
    assert IsTomlName(file);
  }

  /** After `setBankHidden(bankId, hidden)` and a reload that gets through, the bank is listed
      among the hidden banks when `hidden` is set and among the visible ones otherwise. When no
      other bank file has the same id and name, it has also left the other list. */
  lemma ToggleMovesBank(s: Store, disk: Disk, bankId: string, hidden: bool, random: Shuffle.Random)
    requires LoadedFrom(s, disk)
    requires SetBankHidden(s, disk, bankId, hidden, None, random).outcome.Done?
    requires BankData(disk, s.catalog.bankFiles[bankId]).Obj?
    requires LoadQuestions(s, SetBankHidden(s, disk, bankId, hidden, None, random).disk, random).ok
    ensures var r := SetBankHidden(s, disk, bankId, hidden, None, random);
      var bank := RefOf(BankData(disk, s.catalog.bankFiles[bankId]));
      && (hidden ==> bank in r.store.catalog.unloaded)
      && (!hidden ==> bank in r.store.catalog.loaded)
    ensures var r := SetBankHidden(s, disk, bankId, hidden, None, random);
      var file := s.catalog.bankFiles[bankId];
      var bank := RefOf(BankData(disk, file));
      (forall f :: f in TomlFiles(disk.listing.value) && f != file ==> RefOf(BankData(disk, f)) != bank)
      ==> && (hidden ==> bank !in r.store.catalog.loaded)
          && (!hidden ==> bank !in r.store.catalog.unloaded)
  {
    var r := SetBankHidden(s, disk, bankId, hidden, None, random);
    var file := s.catalog.bankFiles[bankId];
    var data := BankData(disk, file);
    var files := TomlFiles(disk.listing.value);
    LoadedFileListed(s, disk, bankId);
    ToggleWrites(s, disk, bankId, hidden, random, file);
    var k :| 0 <= k < |files| && files[k] == file;
    LoadCatalog(s, r.disk, random);
    var ds' := Banks(r.disk, files);
    assert ds'[k] == SetField(data, "hidden", Bool(hidden));
    GetSetField(data, "hidden", Bool(hidden), "id");
    GetSetField(data, "hidden", Bool(hidden), "name");
    assert RefOf(ds'[k]) == RefOf(data);
    RefsPartition(ds');
    if forall f :: f in files && f != file ==> RefOf(BankData(disk, f)) != RefOf(data) {
      RewrittenRefOneSide(disk, r.disk, files, file, RefOf(data), hidden);
    }
  }

  /** When only `file` changed and no other listed file has the reference `x`, the reload
      lists `x` on one side only: the side the new `hidden` flag of `file` names. */
  lemma RewrittenRefOneSide(disk: Disk, disk': Disk, files: seq<string>, file: string, x: BankRef, hidden: bool)
    requires forall f :: f != file ==> Read(disk', f) == Read(disk, f)
    requires IsHidden(BankData(disk', file)) == hidden
    requires forall f :: f in files && f != file ==> RefOf(BankData(disk, f)) != x
    ensures hidden ==> x !in ShownRefs(Banks(disk', files))
    ensures !hidden ==> x !in HiddenRefs(Banks(disk', files))
  {
    var ds := Banks(disk', files);
    forall j | 0 <= j < |ds|
      ensures RefOf(ds[j]) == x ==> IsHidden(ds[j]) == hidden
    {
      if files[j] != file {
        assert files[j] in files;
        assert ds[j] == BankData(disk, files[j]);
      }
    }
    RefsOneSide(ds, x);
  }

  /** After `setBankHidden` and a reload that gets through, `getQuestionCount()` has changed by
      the bank's contribution after the write less its contribution before. */
  lemma ToggleCount(s: Store, disk: Disk, bankId: string, hidden: bool, random: Shuffle.Random)
    requires LoadedFrom(s, disk)
    requires forall i, j :: 0 <= i < j < |disk.listing.value| ==> disk.listing.value[i] != disk.listing.value[j]
    requires SetBankHidden(s, disk, bankId, hidden, None, random).outcome.Done?
    requires LoadQuestions(s, SetBankHidden(s, disk, bankId, hidden, None, random).disk, random).ok
    ensures var r := SetBankHidden(s, disk, bankId, hidden, None, random);
      var file := s.catalog.bankFiles[bankId];
      QuestionCount(r.store) + Contribution(BankData(disk, file))
        == |s.catalog.all| + Contribution(BankData(r.disk, file))
  {
    var r := SetBankHidden(s, disk, bankId, hidden, None, random);
    var file := s.catalog.bankFiles[bankId];
    var files := TomlFiles(disk.listing.value);
    var data' := SetField(BankData(disk, file), "hidden", Bool(hidden));
    ToggleWrites(s, disk, bankId, hidden, random, file);
    TomlFilesDistinct(disk.listing.value);
    LoadedFileListed(s, disk, bankId);
    var k :| 0 <= k < |files| && files[k] == file;
    LoadedCount(s, disk);
    LoadedAfterLoad(s, r.disk, random);
    LoadedCount(r.store, r.disk);
    BanksAfterWrite(disk, files, k, data');
    BankCountUpdate(Banks(disk, files), k, data');
  }

  /** `!unload` of a visible bank after a successful load: the reload gets through and
      `getQuestionCount()` drops by the number of that bank's questions. */
  lemma UnloadDropsCount(s: Store, disk: Disk, bankId: string, random: Shuffle.Random)
    requires LoadedFrom(s, disk)
    requires forall i, j :: 0 <= i < j < |disk.listing.value| ==> disk.listing.value[i] != disk.listing.value[j]
    requires bankId in s.catalog.bankFiles
    requires BankData(disk, s.catalog.bankFiles[bankId]).Obj?
    requires !IsHidden(BankData(disk, s.catalog.bankFiles[bankId]))
    ensures LoadQuestions(s, SetBankHidden(s, disk, bankId, true, None, random).disk, random).ok
    ensures QuestionCount(SetBankHidden(s, disk, bankId, true, None, random).store)
      + |QuestionItems(BankData(disk, s.catalog.bankFiles[bankId]))| == |s.catalog.all|
  {
    var r := SetBankHidden(s, disk, bankId, true, None, random);
    var file := s.catalog.bankFiles[bankId];
    var data := BankData(disk, file);
    var files := TomlFiles(disk.listing.value);
    ToggleKnownSucceeds(s, disk, bankId, true, random);
    ToggleWrites(s, disk, bankId, true, random, file);
    LoadFilesSucceeds(EmptyCatalog, disk, files);
    GetSetField(data, "hidden", Bool(true), "hidden");
    HideKeepsLoadable(disk, file, SetField(data, "hidden", Bool(true)), files);
    LoadSucceeds(s, r.disk, random);
    ToggleCount(s, disk, bankId, true, random);
  }
}

=== FILE: shuffle.dfy ===
/** `shuffleArray`: an in-order Fisher–Yates shuffle of a copy of its argument. The random
    number generator becomes an explicit parameter: `random(i)` stands for the value of
    `Math.floor(Math.random() * (i + 1))` drawn at step `i`, reduced into range. */
module Shuffle {

  /** The draws of one shuffle: step `i` swaps position `i` with position `random(i) % (i + 1)`. */
  type Random = nat -> nat

  /** The position step `i` swaps with, in `0..i`. */
  function Pick(random: Random, i: nat): (j: nat)
    ensures j <= i
  {
    random(i) % (i + 1)
  }

  /** Exchange of two positions, `[s[i], s[j]] = [s[j], s[i]]`. */
  function Swap<T>(s: seq<T>, i: nat, j: nat): (r: seq<T>)
    requires i < |s| && j < |s|
    ensures |r| == |s|
    ensures r[i] == s[j] && r[j] == s[i]
    ensures forall k :: 0 <= k < |s| && k != i && k != j ==> r[k] == s[k]
    ensures multiset(r) == multiset(s)
  {
    s[i := s[j]][j := s[i]]
  }

  lemma SwapSelf<T>(s: seq<T>, i: nat)
    requires i < |s|
    ensures Swap(s, i, i) == s
  {
    assert s[i := s[i]] == s;
  }

  /** The loop's remaining work: the steps `n - 1` down to `1` applied to `s`. */
  function FisherYates<T>(s: seq<T>, n: nat, random: Random): (r: seq<T>)
    requires n <= |s|
    ensures |r| == |s|
    ensures multiset(r) == multiset(s)
    decreases n
  {
    if n <= 1 then s else FisherYates(Swap(s, n - 1, Pick(random, n - 1)), n - 1, random)
  }

  /** The result of `shuffleArray(a)` under the draws `random`. */
  function Shuffle<T>(a: seq<T>, random: Random): seq<T> {
    FisherYates(a, |a|, random)
  }

  /** The shuffle is a permutation of its input: same length and the same elements, each as
      often as before. */
  lemma ShuffleIsPermutation<T>(a: seq<T>, random: Random)
    ensures |Shuffle(a, random)| == |a|
    ensures multiset(Shuffle(a, random)) == multiset(a)
    ensures forall x :: x in Shuffle(a, random) <==> x in a
  {
    var r := Shuffle(a, random);
    assert forall x :: x in r <==> x in multiset(r);
    assert forall x :: x in a <==> x in multiset(a);
  }

  /** Draws that always pick the current position leave the order alone: the unshuffled order
      is among the possible outcomes. */
  lemma {:induction false} FisherYatesFixed<T>(s: seq<T>, n: nat, random: Random)
    requires n <= |s|
    requires forall i :: 0 < i < n ==> Pick(random, i) == i
    ensures FisherYates(s, n, random) == s
    decreases n
  {
    if n > 1 {
      var j := Pick(random, n - 1);
      assert j == n - 1;
      SwapSelf(s, n - 1);
      assert FisherYates(s, n, random) == FisherYates(Swap(s, n - 1, j), n - 1, random);
      FisherYatesFixed(s, n - 1, random);
    }
  }

  /** The loop of `shuffleArray`, over a copy of the argument (the argument is a value and is
      left as it was). */
  method ShuffleArray<T>(a: seq<T>, random: Random) returns (shuffled: seq<T>)
    ensures shuffled == Shuffle(a, random)
    ensures |shuffled| == |a| && multiset(shuffled) == multiset(a)
  {
    shuffled := a;
    var i: int := |shuffled| - 1;
    while i > 0
      invariant -1 <= i < |a|
      invariant |shuffled| == |a|
      invariant FisherYates(shuffled, i + 1, random) == Shuffle(a, random)
      decreases i
    {
      var j := Pick(random, i);
      shuffled := Swap(shuffled, i, j);
      i := i - 1;
    }
  }
}

=== FILE: text.dfy ===
/** String operations the bot relies on, stated over `string` = `seq<char>`:
    ASCII lower-casing, ECMAScript `trim`, the answer normalisation built from them,
    `split(" ")` on a single-character separator, `endsWith` and decimal rendering. */
module Text {

  /** The code points ECMAScript's `String.prototype.trim` strips: the WhiteSpace and
      LineTerminator productions (tab, VT, FF, space, NBSP, ZWNBSP, the Zs category, LF, CR,
      LS, PS). */
  const Spaces: set<char> := {
    ' ', '\t', '\n', '\U{000B}', '\U{000C}', '\r', '\U{00A0}', '\U{1680}',
    '\U{2000}', '\U{2001}', '\U{2002}', '\U{2003}', '\U{2004}', '\U{2005}', '\U{2006}',
    '\U{2007}', '\U{2008}', '\U{2009}', '\U{200A}',
    '\U{2028}', '\U{2029}', '\U{202F}', '\U{205F}', '\U{3000}', '\U{FEFF}'
  }

  predicate IsSpace(c: char) {
    c in Spaces
  }

  /* ---------------------------------------------------------------- lower case */

  /** `toLowerCase` restricted to ASCII letters. */
  function LowerChar(c: char): char {
    if 'A' <= c <= 'Z' then (c as int + 32) as char else c
  }

  predicate IsLower(s: string) {
    forall i :: 0 <= i < |s| ==> LowerChar(s[i]) == s[i]
  }

  function Lower(s: string): (r: string)
    ensures |r| == |s|
    ensures forall i :: 0 <= i < |s| ==> r[i] == LowerChar(s[i])
    ensures IsLower(r)
  {
    if |s| == 0 then [] else [LowerChar(s[0])] + Lower(s[1..])
  }

  /** Lower-casing leaves an already lower-case string alone. */
  lemma LowerFixesLower(s: string)
    requires IsLower(s)
    ensures Lower(s) == s
  {
  }

  /* ---------------------------------------------------------------- trim */

  /** `s[i..j]` is what trimming `s` must leave: only spaces outside it, and it neither starts
      nor ends with a space. */
  predicate IsTrimmingOf(s: string, i: int, j: int) {
    && 0 <= i <= j <= |s|
    && (forall k :: 0 <= k < i ==> IsSpace(s[k]))
    && (forall k :: j <= k < |s| ==> IsSpace(s[k]))
    && (i == j || (!IsSpace(s[i]) && !IsSpace(s[j - 1])))
  }

  /** Skips the run of spaces that starts at `i`: the index of the first non-space at or after
      `i`, or `|s|`. */
  function SkipSpaces(s: string, i: nat): (k: nat)
    requires i <= |s|
    ensures i <= k <= |s|
    ensures forall m :: i <= m < k ==> IsSpace(s[m])
    ensures k == |s| || !IsSpace(s[k])
    decreases |s| - i
  {
    if i < |s| && IsSpace(s[i]) then SkipSpaces(s, i + 1) else i
  }

  /** Backs over the run of spaces that ends at `j`, stopping at `i`: the end of the last
      non-space in `s[i..j]`, or `i`. */
  function BackSpaces(s: string, i: nat, j: nat): (k: nat)
    requires i <= j <= |s|
    ensures i <= k <= j
    ensures forall m :: k <= m < j ==> IsSpace(s[m])
    ensures k == i || !IsSpace(s[k - 1])
    decreases j
  {
    if i < j && IsSpace(s[j - 1]) then BackSpaces(s, i, j - 1) else j
  }

  /** Where `Trim` starts cutting: the length of the leading run of spaces. */
  function TrimOffset(s: string): nat
    ensures TrimOffset(s) <= |s|
  {
    SkipSpaces(s, 0)
  }

  /** ECMAScript `trim`. */
  function Trim(s: string): (r: string)
    ensures TrimOffset(s) + |r| <= |s|
    ensures IsTrimmingOf(s, TrimOffset(s), TrimOffset(s) + |r|)
    ensures r == s[TrimOffset(s)..TrimOffset(s) + |r|]
  {
    var i := SkipSpaces(s, 0);
    var j := BackSpaces(s, i, |s|);
    s[i..j]
  }

  /** Two cuts that both meet `IsTrimmingOf` cut out the same piece. */
  lemma TrimmingsAgree(s: string, i: int, j: int, a: int, b: int)
    requires IsTrimmingOf(s, i, j) && IsTrimmingOf(s, a, b)
    ensures s[i..j] == s[a..b]
  {
    assert i < j ==> !IsSpace(s[i]) && !IsSpace(s[j - 1]);
    assert a < b ==> !IsSpace(s[a]) && !IsSpace(s[b - 1]);
    assert i < j ==> a <= i && j <= b;
    assert a < b ==> i <= a && b <= j;
  }

  /** Trimming is determined by the string: any cut with only spaces outside it and no space at
      its ends is exactly what `Trim` returns. */
  lemma TrimUnique(s: string, i: int, j: int)
    requires IsTrimmingOf(s, i, j)
    ensures Trim(s) == s[i..j]
  {
    var a := TrimOffset(s);
    var r := Trim(s);
    TrimmingsAgree(s, i, j, a, a + |r|);
  }

  /** Trimming twice is trimming once. */
  lemma TrimIdempotent(s: string)
    ensures Trim(Trim(s)) == Trim(s)
  {
    var t := Trim(s);
    assert IsTrimmingOf(t, 0, |t|);
    TrimUnique(t, 0, |t|);
    assert t[0..|t|] == t;
  }

  /* ---------------------------------------------------------------- normalisation */

  /** The answer normalisation `x.toLowerCase().trim()`. */
  function Normalise(s: string): string {
    Trim(Lower(s))
  }

  /** What `Trim` returns has no space at either end. */
  lemma TrimShape(s: string)
    ensures IsTrimmingOf(Trim(s), 0, |Trim(s)|)
  {
    var t := Trim(s);
    var a := TrimOffset(s);
    assert |t| > 0 ==> t[0] == s[a] && t[|t| - 1] == s[a + |t| - 1];
  }

  /** Trimming a lower-case string leaves it lower case. */
  lemma TrimKeepsLower(s: string)
    requires IsLower(s)
    ensures IsLower(Trim(s))
  {
    var t := Trim(s);
    var a := TrimOffset(s);
    forall k | 0 <= k < |t|
      ensures LowerChar(t[k]) == t[k]
    {
      assert t[k] == s[a + k];
    }
  }

  /** A normalised answer is lower case and carries no surrounding white space. */
  lemma NormaliseShape(s: string)
    ensures IsLower(Normalise(s))
    ensures IsTrimmingOf(Normalise(s), 0, |Normalise(s)|)
  {
    TrimKeepsLower(Lower(s));
    TrimShape(Lower(s));
  }

  /** Normalising a normalised answer changes nothing, so comparing normal forms is an
      equivalence on answers. */
  lemma NormaliseIdempotent(s: string)
    ensures Normalise(Normalise(s)) == Normalise(s)
  {
    var n := Normalise(s);
    NormaliseShape(s);
    LowerFixesLower(n);
    TrimUnique(n, 0, |n|);
    assert n[0..|n|] == n;
  }

  /* ---------------------------------------------------------------- split / join */

  /** `s.split(sep)` for a one-character separator: the pieces between separators, keeping
      empty pieces, so there is always one more piece than separators. */
  function Split(s: string, sep: char): (parts: seq<string>)
    ensures |parts| >= 1
    ensures forall k :: 0 <= k < |parts| ==> sep !in parts[k]
  {
    if |s| == 0 then [""]
    else
      var rest := Split(s[1..], sep);
      if s[0] == sep then [""] + rest else [[s[0]] + rest[0]] + rest[1..]
  }

  /** `parts.join(sep)`. */
  function Join(parts: seq<string>, sep: char): string
    requires |parts| >= 1
  {
    if |parts| == 1 then parts[0] else parts[0] + [sep] + Join(parts[1..], sep)
  }

  /** Joining the pieces of a split gives the original string back. */
  lemma {:induction false} JoinSplit(s: string, sep: char)
    ensures Join(Split(s, sep), sep) == s
  {
    if |s| > 0 {
      var rest := Split(s[1..], sep);
      JoinSplit(s[1..], sep);
      if s[0] != sep {
        if |rest| == 1 {
        } else {
          assert rest == [rest[0]] + rest[1..];
          assert Join(rest, sep) == rest[0] + [sep] + Join(rest[1..], sep);
        }
      }
      assert s == [s[0]] + s[1..];
    }
  }

  /** Splitting `piece + sep + rest` cuts off exactly `piece`. */
  lemma {:induction false} SplitAfterPiece(piece: string, sep: char, rest: string)
    requires sep !in piece
    ensures Split(piece + [sep] + rest, sep) == [piece] + Split(rest, sep)
  {
    var s := piece + [sep] + rest;
    if |piece| == 0 {
      assert s[1..] == rest;
    } else {
      assert s[1..] == piece[1..] + [sep] + rest;
      SplitAfterPiece(piece[1..], sep, rest);
      assert [piece[0]] + piece[1..] == piece;
    }
  }

  /** A string without the separator splits into itself. */
  lemma {:induction false} SplitWithoutSeparator(s: string, sep: char)
    requires sep !in s
    ensures Split(s, sep) == [s]
  {
    if |s| > 0 {
      SplitWithoutSeparator(s[1..], sep);
      assert [s[0]] + s[1..] == s;
    }
  }

  /** The first piece of `piece + rest`, where `rest` is empty or starts at a separator, is
      `piece`. */
  lemma {:induction false} SplitFirstPiece(piece: string, sep: char, rest: string)
    requires sep !in piece
    requires |rest| == 0 || rest[0] == sep
    ensures Split(piece + rest, sep)[0] == piece
  {
    if |rest| == 0 {
      SplitWithoutSeparator(piece, sep);
      assert piece + rest == piece;
    } else {
      SplitAfterPiece(piece, sep, rest[1..]);
      assert piece + rest == piece + [sep] + rest[1..];
    }
  }

  /** Splitting a join of separator-free pieces gives the pieces back. */
  lemma {:induction false} SplitJoin(parts: seq<string>, sep: char)
    requires |parts| >= 1
    requires forall k :: 0 <= k < |parts| ==> sep !in parts[k]
    ensures Split(Join(parts, sep), sep) == parts
  {
    if |parts| == 1 {
      SplitWithoutSeparator(parts[0], sep);
    } else {
      SplitJoin(parts[1..], sep);
      SplitAfterPiece(parts[0], sep, Join(parts[1..], sep));
      assert [parts[0]] + parts[1..] == parts;
    }
  }

  /* ---------------------------------------------------------------- misc */

  predicate EndsWith(s: string, suffix: string) {
    |suffix| <= |s| && s[|s| - |suffix|..] == suffix
  }

  function DigitChar(d: nat): char
    requires d < 10
  {
    ('0' as int + d) as char
  }

  function DigitValue(c: char): nat {
    if '0' <= c <= '9' then c as int - '0' as int else 0
  }

  /** Decimal rendering of a natural number, as JavaScript prints an integer. */
  function NatToString(n: nat): (r: string)
    ensures |r| >= 1
    ensures forall k :: 0 <= k < |r| ==> '0' <= r[k] <= '9'
  {
    if n < 10 then [DigitChar(n)] else NatToString(n / 10) + [DigitChar(n % 10)]
  }

  /** Reads a string of decimal digits back as a number. */
  function ParseDigits(s: string): nat {
    if |s| == 0 then 0 else 10 * ParseDigits(s[..|s| - 1]) + DigitValue(s[|s| - 1])
  }

  /** Decimal rendering loses nothing: the printed digits read back as the number. */
  lemma {:induction false} NatToStringRoundTrip(n: nat)
    ensures ParseDigits(NatToString(n)) == n
  {
    var r := NatToString(n);
    if n >= 10 {
      var q := NatToString(n / 10);
      assert r == q + [DigitChar(n % 10)];
      assert r[..|r| - 1] == q;
      NatToStringRoundTrip(n / 10);
      assert DigitValue(r[|r| - 1]) == n % 10;
    } else {
      assert r[..0] == [];
      assert DigitValue(r[0]) == n;
    }
  }

  function IntToString(n: int): string {
    if n < 0 then "-" + NatToString(-n) else NatToString(n)
  }
}

=== FILE: trivia.dfy ===
/** The trivia session of `trivia.js`: who may run the game, starting, stopping and skipping,
    judging answers with the wrong-attempt limit, the `!load`/`!unload` commands and the
    argument check of `!scores`. The module-level variables become a `World` value; each
    handler returns the next world, the replies it sent and whether it ended by throwing. */
module Trivia {
  import opened Wrappers
  import opened Values
  import opened Files
  import Text
  import Shuffle
  import Questions
  import BankValidator

  /** The parts of `config.toml` the handlers read: `admins.nicks`,
      `trivia.max_wrong_attempts` and `trivia.scores_top_count` (0 when absent). */
  datatype Config = Config(adminNicks: seq<string>, maxWrongAttempts: int, scoresTopCount: int)

  /** `isAdmin(nick)`. */
  predicate IsAdmin(config: Config, nick: string) {
    nick in config.adminNicks
  }

  /** `isRunning`, `currentQuestion` (`None` for `null`), `wrongAttempts`, together with the
      question store, the questions directory and the score ledger (one entry per point
      `recordScore` records). */
  datatype World = World(
    running: bool,
    current: Option<Value>,
    wrongAttempts: int,
    store: Questions.Store,
    disk: Disk,
    ledger: multiset<string>)

  /** A chat message: its sender and its text. */
  datatype Event = Event(nick: string, message: string)

  /** The world after a handler, the replies it sent in order, and whether it threw a
      `TypeError` part way; what it had changed and sent before the throw stays. */
  datatype Step = Step(world: World, replies: seq<string>, threw: bool)

  /** `bold(text)`: the IRC bold control code around the text. */
  function Bold(text: string): string {
    "\U{0002}" + text + "\U{0002}"
  }

  /** The blank line (U+2800) sent before each new question. */
  const Blank: string := "\U{2800}"

  function QuestionLine(text: Value): string {
    Bold("Question: ") + ToJsString(text)
  }

  /** `!!currentQuestion`. */
  predicate Present(q: Option<Value>) {
    q.Some? && Truthy(q.value)
  }

  /** `q.key`; `None` where reading a property of `null` or `undefined` throws. */
  function Prop(q: Option<Value>, key: string): Option<Value> {
    if q.None? || q.value.Undefined? then None else Some(Get(q.value, key))
  }

  /** Draws the next question, resets `wrongAttempts` and announces it after the lines already
      sent; announcing a `null` draw throws. */
  function Advance(w: World, said: seq<string>, random: Shuffle.Random): (r: Step)
    ensures r.world.wrongAttempts == 0
    ensures r.world.running == w.running && r.world.ledger == w.ledger && r.world.disk == w.disk
    ensures r.world.current == Questions.NextQuestion(w.store, random).question
    ensures r.world.store == Questions.NextQuestion(w.store, random).store
    ensures |r.replies| > |said| && r.replies[..|said|] == said && r.replies[|said|] == Blank
  {
    var d := Questions.NextQuestion(w.store, random);
    var w1 := w.(current := d.question, store := d.store, wrongAttempts := 0);
    match Prop(d.question, "question")
    case None => Step(w1, said + [Blank], true)
    case Some(text) => Step(w1, said + [Blank, QuestionLine(text)], false)
  }

  /** Moving on throws exactly when there is nothing left to draw, once the store holds only
      tables. */
  lemma AdvanceThrows(w: World, said: seq<string>, random: Shuffle.Random)
    requires Questions.Tabled(w.store)
    ensures Advance(w, said, random).threw <==> Questions.QuestionCount(w.store) == 0
  {
    Questions.DrawKeepsTabled(w.store, random);
  }

  /* ---------------------------------------------------------------- start, stop, skip */

  /** `handleStart(event)`. */
  function HandleStart(config: Config, w: World, e: Event, random: Shuffle.Random): (r: Step)
    ensures !IsAdmin(config, e.nick) ==> r == Step(w, ["Sorry, only admins can start trivia."], false)
    ensures IsAdmin(config, e.nick) && w.running ==> r == Step(w, ["Trivia is already running!"], false)
    ensures IsAdmin(config, e.nick) && !w.running && Questions.QuestionCount(w.store) == 0
      ==> r == Step(w, ["No questions loaded! Add question files first."], false)
    ensures !r.threw
    ensures r.world.ledger == w.ledger && r.world.disk == w.disk
    ensures r.world.store == w.store || r.world.store == Questions.NextQuestion(w.store, random).store
    ensures r.world.wrongAttempts == w.wrongAttempts || r.world.wrongAttempts == 0
    ensures w.running ==> r.world == w
    ensures IsAdmin(config, e.nick) && !w.running && Questions.QuestionCount(w.store) > 0
      && !Present(Questions.NextQuestion(w.store, random).question)
      ==> !r.world.running && r.replies == ["No questions available!"]
    ensures !w.running && r.world.running ==>
      && IsAdmin(config, e.nick) && Present(r.world.current)
      && r.world.wrongAttempts == 0
      && r.world.current == Questions.NextQuestion(w.store, random).question
      && r.world.store == Questions.NextQuestion(w.store, random).store
      && r.replies == ["Starting trivia!", Blank, QuestionLine(Get(r.world.current.value, "question"))]
  {
    if !IsAdmin(config, e.nick) then Step(w, ["Sorry, only admins can start trivia."], false)
    else if w.running then Step(w, ["Trivia is already running!"], false)
    else if Questions.QuestionCount(w.store) == 0 then Step(w, ["No questions loaded! Add question files first."], false)
    else
      var d := Questions.NextQuestion(w.store, random);
      var w1 := w.(running := true, wrongAttempts := 0, current := d.question, store := d.store);
      if !Present(d.question) then Step(w1.(running := false), ["No questions available!"], false)
      else Step(w1, ["Starting trivia!", Blank, QuestionLine(Get(d.question.value, "question"))], false)
  }

  /** An admin's `!start` while idle with questions loaded always starts the game: the
      "No questions available!" branch is unreachable once the store holds only tables. */
  lemma StartStarts(config: Config, w: World, e: Event, random: Shuffle.Random)
    requires Questions.Tabled(w.store)
    requires IsAdmin(config, e.nick) && !w.running && Questions.QuestionCount(w.store) > 0
    ensures HandleStart(config, w, e, random).world.running
    ensures |HandleStart(config, w, e, random).replies| == 3
  {
    Questions.DrawKeepsTabled(w.store, random);
  }

  /** `handleStop(event)`. */
  function HandleStop(config: Config, w: World, e: Event): (r: Step)
    ensures !IsAdmin(config, e.nick) ==> r == Step(w, ["Sorry, only admins can stop trivia."], false)
    ensures IsAdmin(config, e.nick) && !w.running ==> r == Step(w, ["Trivia is not running."], false)
    ensures IsAdmin(config, e.nick) && w.running
      ==> r.world == w.(running := false, current := None, wrongAttempts := 0) && r.replies == ["Trivia stopped!"]
    ensures !r.threw
  {
    if !IsAdmin(config, e.nick) then Step(w, ["Sorry, only admins can stop trivia."], false)
    else if !w.running then Step(w, ["Trivia is not running."], false)
    else Step(w.(running := false, current := None, wrongAttempts := 0), ["Trivia stopped!"], false)
  }

  /** `handleSkip(event)`; anyone may skip. */
  function HandleSkip(w: World, random: Shuffle.Random): (r: Step)
    ensures !w.running || !Present(w.current) ==> r == Step(w, ["Trivia is not running."], false)
    ensures r.world.ledger == w.ledger && r.world.running == w.running && r.world.disk == w.disk
    ensures r.world.store == w.store || r.world.store == Questions.NextQuestion(w.store, random).store
    ensures r.world.wrongAttempts == w.wrongAttempts || r.world.wrongAttempts == 0
  {
    if !w.running || !Present(w.current) then Step(w, ["Trivia is not running."], false)
    else
      match Index0(Get(w.current.value, "answer"))
      case None => Step(w, [], true)
      case Some(first) =>
        Advance(w, [Bold("Skipped! ") + "The answer was: " + Bold(ToJsString(first))], random)
  }

  /** A skip of a question with any `answer` but `undefined` reveals `answer[0]`, moves on to
      the next draw and resets the wrong-attempt counter; it throws only when the store has run
      out of questions. */
  lemma SkipAdvances(w: World, random: Shuffle.Random)
    requires Questions.Tabled(w.store)
    requires w.running && Present(w.current) && !Get(w.current.value, "answer").Undefined?
    ensures var r := HandleSkip(w, random);
      && r.world.current == Questions.NextQuestion(w.store, random).question
      && r.world.wrongAttempts == 0
      && (r.threw <==> Questions.QuestionCount(w.store) == 0)
      && |r.replies| >= 2
      && r.replies[0] == Bold("Skipped! ") + "The answer was: "
                         + Bold(ToJsString(Index0(Get(w.current.value, "answer")).value))
      && r.replies[1] == Blank
  {
    Questions.DrawKeepsTabled(w.store, random);
  }

  /** A skip after the last visible bank was unloaded mid-game throws on the `null` draw and
      leaves the game running with no current question; from then on every skip answers that
      trivia is not running, although `isRunning` is still set. */
  lemma SkipWhenEmptied(w: World, random: Shuffle.Random)
    requires w.running && Present(w.current) && !Get(w.current.value, "answer").Undefined?
    requires Questions.QuestionCount(w.store) == 0
    ensures var r := HandleSkip(w, random);
      && r.threw && r.world.running && r.world.current.None?
      && HandleSkip(r.world, random) == Step(r.world, ["Trivia is not running."], false)
  {
  }

  /* ---------------------------------------------------------------- answers */

  /** `answer.map((a) => a.toLowerCase().trim())`; `None` where it throws: `answer` is not an
      array, or one of its elements is not a string. */
  function NormalisedAnswers(answer: Value): Option<seq<string>> {
    if answer.Arr? && forall i :: 0 <= i < |answer.items| ==> answer.items[i].Str?
    then Some(seq(|answer.items|, i requires 0 <= i < |answer.items| => Text.Normalise(answer.items[i].s)))
    else None
  }

  /** The strings of an answer array. */
  function AnswerTexts(answer: Value): seq<string>
    requires answer.Arr? && forall i :: 0 <= i < |answer.items| ==> answer.items[i].Str?
  {
    seq(|answer.items|, i requires 0 <= i < |answer.items| => answer.items[i].s)
  }

  /** `handleAnswer(event)`: every message while a question is up. */
  function HandleAnswer(config: Config, w: World, e: Event, random: Shuffle.Random): (r: Step)
    ensures !w.running || !Present(w.current) ==> r == Step(w, [], false)
    ensures r.world.running == w.running && r.world.disk == w.disk
    ensures r.world.store == w.store || r.world.store == Questions.NextQuestion(w.store, random).store
    ensures r.world.ledger == w.ledger || r.world.ledger == w.ledger + multiset{e.nick}
    ensures || r.world.wrongAttempts == w.wrongAttempts
            || r.world.wrongAttempts == 0
            || r.world.wrongAttempts == w.wrongAttempts + 1 < config.maxWrongAttempts
  {
    if !w.running || !Present(w.current) then Step(w, [], false)
    else
      var answer := Get(w.current.value, "answer");
      match NormalisedAnswers(answer)
      case None => Step(w, [], true)
      case Some(correctAnswers) =>
        if Text.Normalise(e.message) in correctAnswers then
          var line := Bold("Correct") + ", " + e.nick + "! The answer was: " + Bold(ToJsString(answer.items[0]));
          Advance(w.(ledger := w.ledger + multiset{e.nick}), [line], random)
        else
          var wrong := w.wrongAttempts + 1;
          if wrong >= config.maxWrongAttempts then
            var first := if |answer.items| > 0 then answer.items[0] else Undefined;
            Advance(w.(wrongAttempts := wrong), [Bold("Too many wrong attempts!") + " The answer was: " + ToJsString(first)], random)
          else
            var remaining := config.maxWrongAttempts - wrong;
            Step(w.(wrongAttempts := wrong),
                 [Bold("Wrong!") + " The answer isn't " + Bold(e.message) + ". " + Text.IntToString(remaining) + " attempts remaining."],
                 false)
  }

  /** The answer check inside `handleAnswer` agrees with `checkAnswer`: the message is accepted
      exactly when its normal form is the normal form of one of the answers. */
  lemma InlineCheckIsCheckAnswer(answer: Value, message: string)
    requires answer.Arr? && forall i :: 0 <= i < |answer.items| ==> answer.items[i].Str?
    ensures NormalisedAnswers(answer).Some?
    ensures Text.Normalise(message) in NormalisedAnswers(answer).value
      <==> Questions.CheckAnswer(message, AnswerTexts(answer))
  {
    var texts := AnswerTexts(answer);
    var correct := NormalisedAnswers(answer).value;
    Questions.CheckAnswerExists(message, texts);
    if Text.Normalise(message) in correct {
      var k :| 0 <= k < |correct| && correct[k] == Text.Normalise(message);
      assert Text.Normalise(texts[k]) == Text.Normalise(message);
    }
    if Questions.CheckAnswer(message, texts) {
      var k :| 0 <= k < |texts| && Text.Normalise(texts[k]) == Text.Normalise(message);
      assert correct[k] == Text.Normalise(message);
    }
  }

  /** What one answer does while a question with string answers is up. A correct answer
      records exactly one point for the sender, moves on and resets the counter. A wrong one
      records nothing: it counts one more wrong attempt, and at the limit moves on and resets
      the counter, otherwise keeps the question and reports at least one attempt left. */
  lemma AnswerOutcome(config: Config, w: World, e: Event, random: Shuffle.Random)
    requires w.running && Present(w.current)
    requires var a := Get(w.current.value, "answer"); a.Arr? && forall i :: 0 <= i < |a.items| ==> a.items[i].Str?
    ensures var a := Get(w.current.value, "answer");
      var r := HandleAnswer(config, w, e, random);
      var next := Questions.NextQuestion(w.store, random);
      if Questions.CheckAnswer(e.message, AnswerTexts(a)) then
        && r.world.ledger == w.ledger + multiset{e.nick}
        && r.world.current == next.question && r.world.store == next.store
        && r.world.wrongAttempts == 0
      else
        && r.world.ledger == w.ledger
        && if w.wrongAttempts + 1 >= config.maxWrongAttempts then
             r.world.current == next.question && r.world.store == next.store && r.world.wrongAttempts == 0
           else
             && r.world.current == w.current && r.world.store == w.store
             && r.world.wrongAttempts == w.wrongAttempts + 1
             && config.maxWrongAttempts - r.world.wrongAttempts >= 1
             && !r.threw
  {
    InlineCheckIsCheckAnswer(Get(w.current.value, "answer"), e.message);
  }

  /** An answer to a question that passed the bank validator never throws, except when the
      answer moves the game on and the store has run out of questions. */
  lemma ValidatedAnswerThrowsOnlyWhenEmpty(config: Config, w: World, e: Event, random: Shuffle.Random,
                                           q: Value, data: Value)
    requires Questions.Tabled(w.store)
    requires w.running && w.current == Some(Questions.Stamp(q, data))
    requires BankValidator.WellFormedQuestion(q)
    ensures HandleAnswer(config, w, e, random).threw ==> Questions.QuestionCount(w.store) == 0
  {
    Questions.StampFields(q, data);
    var answer := Get(w.current.value, "answer");
    assert answer == Get(q, "answer");
    assert NormalisedAnswers(answer).Some?;
    var wrong := w.wrongAttempts + 1;
    AdvanceThrows(w.(ledger := w.ledger + multiset{e.nick}), [Bold("Correct") + ", " + e.nick + "! The answer was: " + Bold(ToJsString(answer.items[0]))], random);
    AdvanceThrows(w.(wrongAttempts := wrong), [Bold("Too many wrong attempts!") + " The answer was: " + ToJsString(answer.items[0])], random);
  }

  /* ---------------------------------------------------------------- banks */

  /** The common tail of `handleLoad` (`hidden` false) and `handleUnload` (`hidden` true):
      `setBankHidden(bankId, hidden)` and its report. `writeError` is passed on to
      `setBankHidden` as the outcome of its file write. */
  function Toggle(w: World, bankId: string, hidden: bool, writeError: Option<string>, random: Shuffle.Random): (r: Step)
    ensures !r.threw && |r.replies| == 1
    ensures var t := Questions.SetBankHidden(w.store, w.disk, bankId, hidden, writeError, random);
      r.world == w.(store := t.store, disk := t.disk)
  {
    var t := Questions.SetBankHidden(w.store, w.disk, bankId, hidden, writeError, random);
    var w1 := w.(store := t.store, disk := t.disk);
    match t.outcome
    case Done =>
      var count := Text.NatToString(Questions.QuestionCount(t.store));
      Step(w1, [(if hidden then "Unloaded" else "Loaded") + " bank " + bankId + ". Total questions: " + count], false)
    case Failed(error) =>
      Step(w1, ["Failed to " + (if hidden then "unload" else "load") + " bank: " + error], false)
  }

  /** `handleLoad(event)`. */
  function HandleLoad(config: Config, w: World, e: Event, writeError: Option<string>, random: Shuffle.Random): (r: Step)
    ensures !IsAdmin(config, e.nick) ==> r == Step(w, ["Sorry, only admins can load banks."], false)
    ensures IsAdmin(config, e.nick) && |Text.Split(e.message, ' ')| < 2 ==> r == Step(w, ["Usage: !load <bank-id>"], false)
    ensures !r.threw && |r.replies| == 1
  {
    if !IsAdmin(config, e.nick) then Step(w, ["Sorry, only admins can load banks."], false)
    else
      var parts := Text.Split(e.message, ' ');
      if |parts| < 2 then Step(w, ["Usage: !load <bank-id>"], false)
      else Toggle(w, parts[1], false, writeError, random)
  }

  /** `handleUnload(event)`. */
  function HandleUnload(config: Config, w: World, e: Event, writeError: Option<string>, random: Shuffle.Random): (r: Step)
    ensures !IsAdmin(config, e.nick) ==> r == Step(w, ["Sorry, only admins can unload banks."], false)
    ensures IsAdmin(config, e.nick) && |Text.Split(e.message, ' ')| < 2 ==> r == Step(w, ["Usage: !unload <bank-id>"], false)
    ensures !r.threw && |r.replies| == 1
  {
    if !IsAdmin(config, e.nick) then Step(w, ["Sorry, only admins can unload banks."], false)
    else
      var parts := Text.Split(e.message, ' ');
      if |parts| < 2 then Step(w, ["Usage: !unload <bank-id>"], false)
      else Toggle(w, parts[1], true, writeError, random)
  }

  /** The second word of `command id rest`, where neither `command` nor `id` holds a space
      and `rest` is empty or starts with one, is `id`. */
  lemma SecondWord(command: string, id: string, rest: string)
    requires ' ' !in command && ' ' !in id
    requires |rest| == 0 || rest[0] == ' '
    ensures var parts := Text.Split(command + " " + id + rest, ' '); |parts| >= 2 && parts[1] == id
  {
    var tail := id + rest;
    Text.SplitAfterPiece(command, ' ', tail);
    assert command + " " + id + rest == command + [' '] + tail;
    Text.SplitFirstPiece(id, ' ', rest);
  }

  /** An admin's `!load id ...` or `!unload id ...` acts on the bank named by the second word,
      and on nothing else. */
  lemma ToggleTakesSecondWord(config: Config, w: World, nick: string, command: string, id: string, rest: string,
                              hidden: bool, writeError: Option<string>, random: Shuffle.Random)
    requires IsAdmin(config, nick)
    requires ' ' !in command && ' ' !in id
    requires |rest| == 0 || rest[0] == ' '
    ensures var e := Event(nick, command + " " + id + rest);
      (if hidden then HandleUnload(config, w, e, writeError, random) else HandleLoad(config, w, e, writeError, random))
        == Toggle(w, id, hidden, writeError, random)
  {
    SecondWord(command, id, rest);
  }

  /* ---------------------------------------------------------------- scores */

  /** What `handleScores` does: reply with its usage text, or go on to query the top scores
      for a time frame with a row limit. */
  datatype ScoresStep = Usage(reply: string) | Query(timeframe: string, limit: int)

  const Timeframes: seq<string> := ["total", "month", "week", "day"]

  /** `handleScores(event)` up to the score query. */
  function HandleScores(config: Config, e: Event): (r: ScoresStep)
    ensures r.Query? ==> r.timeframe in Timeframes && r.limit != 0
    ensures r.Usage? ==> r.reply == "Usage: !scores <total|month|week|day>"
  {
    var parts := Text.Split(e.message, ' ');
    if |parts| < 2 || parts[1] == "" || parts[1] !in Timeframes then Usage("Usage: !scores <total|month|week|day>")
    else Query(parts[1], if config.scoresTopCount != 0 then config.scoresTopCount else 5)
  }

  /** `!scores frame ...` goes on to the query exactly when the second word is one of the four
      time frames, with the configured row limit or 5 when none is set. */
  lemma ScoresTakesSecondWord(config: Config, nick: string, command: string, frame: string, rest: string)
    requires ' ' !in command && ' ' !in frame
    requires |rest| == 0 || rest[0] == ' '
    ensures var r := HandleScores(config, Event(nick, command + " " + frame + rest));
      && (r.Query? <==> frame in Timeframes)
      && (r.Query? ==> r.timeframe == frame)
      && (r.Query? && config.scoresTopCount != 0 ==> r.limit == config.scoresTopCount)
      && (r.Query? && config.scoresTopCount == 0 ==> r.limit == 5)
  {
    SecondWord(command, frame, rest);
  }

  /** A `!scores` with no second word only gets the usage text. */
  lemma ScoresNeedsFrame(config: Config, nick: string, command: string)
    requires ' ' !in command
    ensures HandleScores(config, Event(nick, command)).Usage?
  {
    Text.SplitWithoutSeparator(command, ' ');
  }

  /* ---------------------------------------------------------------- invariants */

  /** The commands that change the session. */
  datatype Command = Start | Stop | Skip | Answer | Load | Unload

  function Handle(config: Config, w: World, cmd: Command, e: Event, writeError: Option<string>,
                  random: Shuffle.Random): Step
  {
    match cmd
    case Start => HandleStart(config, w, e, random)
    case Stop => HandleStop(config, w, e)
    case Skip => HandleSkip(w, random)
    case Answer => HandleAnswer(config, w, e, random)
    case Load => HandleLoad(config, w, e, writeError, random)
    case Unload => HandleUnload(config, w, e, writeError, random)
  }

  /** The wrong-attempt counter stays below the limit. */
  predicate CounterBelowLimit(config: Config, w: World) {
    0 <= w.wrongAttempts < config.maxWrongAttempts
  }

  /** With a limit of at least one, every handler keeps the counter in `0..limit - 1`. */
  lemma CounterStaysBelowLimit(config: Config, w: World, cmd: Command, e: Event, writeError: Option<string>,
                               random: Shuffle.Random)
    requires config.maxWrongAttempts >= 1
    requires CounterBelowLimit(config, w)
    ensures CounterBelowLimit(config, Handle(config, w, cmd, e, writeError, random).world)
  {
    match cmd
    case Start =>
    case Stop =>
    case Skip =>
    case Answer =>
    case Load =>
    case Unload =>
  }

  /** Only a correct answer records a point, and it records exactly one, for its sender. */
  lemma LedgerOnlyGrowsByCorrectAnswers(config: Config, w: World, cmd: Command, e: Event,
                                        writeError: Option<string>, random: Shuffle.Random)
    ensures var r := Handle(config, w, cmd, e, writeError, random);
      r.world.ledger == w.ledger || (cmd == Answer && r.world.ledger == w.ledger + multiset{e.nick})
  {
    match cmd
    case Start =>
    case Stop =>
    case Skip =>
    case Answer =>
    case Load =>
    case Unload =>
  }

  /** A caller who is not an admin cannot start, stop, load or unload: the world is unchanged
      and the one reply is a refusal. */
  lemma NonAdminChangesNothing(config: Config, w: World, cmd: Command, e: Event,
                               writeError: Option<string>, random: Shuffle.Random)
    requires cmd in {Start, Stop, Load, Unload}
    requires !IsAdmin(config, e.nick)
    ensures Handle(config, w, cmd, e, writeError, random).world == w
    ensures |Handle(config, w, cmd, e, writeError, random).replies| == 1
  {
  }

  /** While idle, answers are ignored and skips only say so. */
  lemma IdleIgnoresPlay(config: Config, w: World, e: Event, random: Shuffle.Random)
    requires !w.running
    ensures HandleAnswer(config, w, e, random) == Step(w, [], false)
    ensures HandleSkip(w, random) == Step(w, ["Trivia is not running."], false)
  {
  }

  /** The store stays tables-only under every handler. */
  lemma HandlersKeepTabled(config: Config, w: World, cmd: Command, e: Event, writeError: Option<string>,
                           random: Shuffle.Random)
    requires Questions.Tabled(w.store)
    ensures Questions.Tabled(Handle(config, w, cmd, e, writeError, random).world.store)
  {
    match cmd
    case Start => Questions.DrawKeepsTabled(w.store, random);
    case Stop =>
    case Skip => Questions.DrawKeepsTabled(w.store, random);
    case Answer => Questions.DrawKeepsTabled(w.store, random);
    case Load =>
      var parts := Text.Split(e.message, ' ');
      if IsAdmin(config, e.nick) && |parts| >= 2 {
        Questions.ToggleKeepsTabled(w.store, w.disk, parts[1], false, writeError, random);
      }
    case Unload =>
      var parts := Text.Split(e.message, ' ');
      if IsAdmin(config, e.nick) && |parts| >= 2 {
        Questions.ToggleKeepsTabled(w.store, w.disk, parts[1], true, writeError, random);
      }
  }
}

=== FILE: values.dfy ===
/** Parsed TOML data as the JavaScript code sees it, and the few JavaScript value operations
    the bot applies to it: property reads, truthiness, `typeof`, `v[0]` and string conversion. */
module Values {
  import opened Wrappers
  import Text

  /** A parsed TOML value. A property that is absent reads as `Undefined`. TOML numbers are
      modelled as integers. */
  datatype Value =
    | Undefined
    | Str(s: string)
    | Bool(b: bool)
    | Num(n: int)
    | Arr(items: seq<Value>)
    | Obj(fields: map<string, Value>)

  /** Property read `v.key`. Reading a named property of a string, number, boolean or array
      yields `undefined` for every key the bot reads. */
  function Get(v: Value, key: string): Value {
    if v.Obj? && key in v.fields then v.fields[key] else Undefined
  }

  /** Property assignment `v.key = x` on a table; other values are left as they are. */
  function SetField(v: Value, key: string, x: Value): Value {
    if v.Obj? then Obj(v.fields[key := x]) else v
  }

  /** Assigning a property of a table changes that property and no other. */
  lemma GetSetField(v: Value, key: string, x: Value, other: string)
    requires v.Obj?
    ensures Get(SetField(v, key, x), key) == x
    ensures other != key ==> Get(SetField(v, key, x), other) == Get(v, other)
  {
  }

  /** JavaScript truthiness: `undefined`, `false`, `0` and `""` are falsy. */
  predicate Truthy(v: Value) {
    match v
    case Undefined => false
    case Str(s) => s != ""
    case Bool(b) => b
    case Num(n) => n != 0
    case Arr(_) => true
    case Obj(_) => true
  }

  /** The `typeof` operator. */
  function TypeOf(v: Value): string {
    match v
    case Undefined => "undefined"
    case Str(_) => "string"
    case Bool(_) => "boolean"
    case Num(_) => "number"
    case Arr(_) => "object"
    case Obj(_) => "object"
  }

  /** `v[0]`; `None` where JavaScript throws a TypeError (indexing `undefined`). */
  function Index0(v: Value): Option<Value> {
    match v
    case Undefined => None
    case Str(s) => Some(if |s| > 0 then Str([s[0]]) else Undefined)
    case Bool(_) => Some(Undefined)
    case Num(_) => Some(Undefined)
    case Arr(items) => Some(if |items| > 0 then items[0] else Undefined)
    case Obj(_) => Some(Get(v, "0"))
  }

  /** JavaScript's ToString, used when a value is concatenated into text or used as an object
      key: arrays join their elements with commas, tables print as `[object Object]`. */
  function ToJsString(v: Value): string
    decreases v
  {
    match v
    case Undefined => "undefined"
    case Str(s) => s
    case Bool(b) => if b then "true" else "false"
    case Num(n) => Text.IntToString(n)
    case Arr(items) =>
      if |items| == 0 then ""
      else
        Text.Join(seq(|items|, i requires 0 <= i < |items| => assert items[i] in items; ToJsString(items[i])), ',')
    case Obj(_) => "[object Object]"
  }
}

=== FILE: wrappers.dfy ===
/** Failure-compatible wrappers shared by the other modules. */
module Wrappers {

  /** A value that may be absent; stands for JavaScript's null/undefined results. */
  datatype Option<+T> = None | Some(value: T)

  /** The outcome of an operation that reports an error value instead of throwing. */
  datatype Result<+R, +E> = Success(value: R) | Failure(error: E)
}
